=== FILE: README.md ===
# A Dafny model of the agent's context compression

This project models the conversation core of a Go LLM-agent toolkit:

- the windowed context-compression manager (`ContextManager`);
- the conversation-history agent (`Agent`);
- the integer side of the token tracker (`TokenStats`);
- the string helpers of the model-comparison program (`truncate`, `contains`,
  `findSubstring`, `splitWords`);
- the compression demonstrations: `runWithCompression` and `compareQuality`,
  with their dialogs and their `truncate`.

Strings are byte sequences (`Text.Bytes`), because Go's `len` and slicing count
UTF-8 bytes and the "three bytes per token" estimate depends on it. Literal
texts are encoded by `Text.Utf8`. `splitWords` ranges over runes, so it works on
`string`.

The completion gateway (and so the summariser) is never called. Each operation
that would call it takes the gateway's answer as a `Chat.Reply` parameter:
either a failure with its cause, or a response with its choices, usage and
model. Where it matters, the operation returns the request it would have sent
(`Ask`) or the summariser call it would have made (`CompressIfNeeded`).
"No call" is therefore an observable result.

Go runtime panics become preconditions. `truncate` panics on a cut with a
too-small limit, and the manager can panic on a slice when its windows are
negative. For `truncate` and the request view, the precondition states exactly
when no panic happens. For the compression step it is a sufficient condition:
the block slice must lie within the history's length. Go itself only needs it
to lie within the slice's capacity (see "Left out").

Modules:

- `Text`: bytes, UTF-8 encoding, `%d`.
- `Chat`: messages, roles, gateway request and reply, the token estimate.
- `ContextWindow`: the manager.
- `SummaryLedger`: proof-only records of which history range each summary
  stands for.
- `ChatAgent`: the agent.
- `TokenUsage`: the token tracker.
- `ComparisonText`: the day-5 helpers.
- `CompressionDemo`: the day-9 runs.

The main results:

- Every stored summary stands for exactly one window of history
  `[i*w, i*w+w)`. The windows are contiguous and never overlap. They never
  reach into the recent window, and the summarised messages stay where they
  were. This holds for any sequence of additions, compressions (successful or
  failed) and resets (`SummaryLedger.ReplayTracks`).
- In the demonstration loop (add a message, then try to compress), with a
  summariser that always answers, the summariser is called after message `n`
  exactly when `(n - recentWindow)` is a positive multiple of the window. That
  call summarises window number `(n - recentWindow) / w`
  (`CompressionDemo.DriveFiring`, `CompressionDemo.CallRange`,
  `CompressionDemo.CallSummary`).
- With windows (10, 6) and the 26-message dialog, compression fires only
  after messages 16 and 26, on `[0,10)` and `[10,20)`. The request view is
  the summary message followed by messages 20 to 25.
- With windows (6, 4) and the 14-message dialog, compression fires once,
  after message 10, on `[0,6)`. The view is the summary message followed by
  messages 10 to 13. Messages 6 to 9 are neither summarised nor sent: between
  compressions, up to one window minus one message lies between the
  summarised prefix and the recent window, and the request view leaves it out
  (`CompressionDemo.SixFourScenario`).

Two behaviours of the statistics are worth knowing:

- With no summaries, `GetStats` still reports as saved the whole estimate of
  the messages outside the recent window, because the compressed estimate
  counts only the recent tail (`ContextWindow.SavingWithoutSummaries`). That
  saving is positive once those messages hold three bytes or more
  (`ContextWindow.SavingWithoutSummariesExample`: one token of two saved).
- The number of recent messages is the recent window itself whenever the
  history is longer than it, so a negative recent window gives a negative
  count. `ContextWindow.GetStats` states both cases.

## Model

| member | source | states |
|---|---|---|
| `Text.DecimalRoundTrip` | internal/agent/context.go:151-153 | the `%d` block number is printed as decimal digits that read back as exactly that number |
| `Chat.RolesDistinct` | internal/agent/agent.go:137-143 | the role names "user", "assistant" and "system" are three different byte strings, so the role test distinguishes them |
| `Chat.EstimateTokens` | internal/agent/context.go:192-196 | the per-message estimate t is the byte length divided by three, rounded down: 3t <= len < 3t + 3 |
| `Chat.SumTokensSplit` | internal/agent/context.go:193-204 | the summed estimate over a concatenation is the sum of the two parts' estimates |
| `ContextWindow.NewContextManager` | internal/agent/context.go:42-51 | empty history and summaries, the windows as given; the invariant holds exactly when the compression window is positive and the recent window non-negative |
| `ContextWindow.AddMessage` | internal/agent/context.go:54-59 | exactly one message is appended at the end, earlier messages are untouched, summaries and window sizes are unchanged, and the invariant is kept |
| `ContextWindow.WindowsKeepSliceInBounds` | internal/agent/context.go:83-92 | with non-negative windows the block slice is always in bounds, so the slice never panics |
| `ContextWindow.CompressIfNeeded` | internal/agent/context.go:62-104 | no summariser call and no change unless the trigger holds; the call renders the block it names; whenever the trigger holds that block is exactly the next window `[k*w, k*w+w)` and lies before the recent window, so the clamp never shortens it; success appends exactly the first choice; a triggered attempt whose summary fails always reports the summariser's error and changes nothing; the status is "not needed" exactly when the trigger does not hold; the invariant is preserved |
| `ContextWindow.CreateSummary` | internal/agent/context.go:133-141 | a summary exists exactly when the gateway answered with at least one choice, and it is the first choice verbatim; a gateway failure is reported with its cause, and an answer without choices as an empty completion |
| `ContextWindow.DialogTextSplit` | internal/agent/context.go:109-112 | rendering two adjacent blocks gives the two renderings one after the other |
| `ContextWindow.DialogTextLength` | internal/agent/context.go:110-112 | the rendered dialog has the role and content bytes of every message plus three separator bytes per message |
| `ContextWindow.ListingIsLines` | internal/agent/context.go:149-153 | the summary listing is one line `[Блок i]: s_i` per summary, numbered from one, in order |
| `ContextWindow.GetContextForRequest` | internal/agent/context.go:145-170 | the view has one synthetic system message exactly when there are summaries, followed by the last `min(recentWindow, len)` history messages in order |
| `ContextWindow.CompressExtendsSummaryMessage` | internal/agent/context.go:149-157 | a successful compression extends the summary message by exactly one numbered line, and adds the message itself to the view only for the first summary |
| `ContextWindow.GetStats` | internal/agent/context.go:178-214 | message and block counts; the recent count is `min(recentWindow, len)` for a non-negative window; the original estimate is over the whole history; the compressed estimate is over the summaries plus the raw tail of the view for a non-negative window, and over the summaries alone for a negative one; tokens saved is their difference when there is anything to count, else 0 |
| `ContextWindow.StatsMatchView` | internal/agent/context.go:185-204 | for a non-negative recent window (the view panics otherwise), the recent count and the compressed estimate describe exactly the raw part of the request view |
| `ContextWindow.TokensSavedAreOmittedMessages` | internal/agent/context.go:194-211 | the saving is the estimate of the messages the view leaves out minus the cost of the summaries |
| `ContextWindow.SavingWithoutSummaries` | internal/agent/context.go:198-211 | with no summaries and a non-negative recent window, the reported saving is the whole estimate of the messages outside the recent window (zero only when they are all shorter than three bytes) |
| `ContextWindow.SavingWithoutSummariesExample` | internal/agent/context.go:198-211 | two three-byte messages with a recent window of one and no summary report one token of two saved |
| `ContextWindow.Reset` | internal/agent/context.go:217-220 | history and summaries become empty, the window sizes stay, and the invariant is kept |
| `SummaryLedger.Start` | internal/agent/context.go:42-51 | a fresh manager is tracked by the empty ledger |
| `SummaryLedger.Add` | internal/agent/context.go:54-59 | appending a message keeps every recorded summary range and its messages in place |
| `SummaryLedger.Compress` | internal/agent/context.go:77-104 | a successful compression records the range `[k*w, k*w+w)` and exactly the messages it summarised; any other outcome records nothing; tracking is preserved |
| `SummaryLedger.ResetLedger` | internal/agent/context.go:217-220 | after a reset the ledger is empty and tracks the reset manager |
| `SummaryLedger.SpanPositions` | internal/agent/context.go:83-85 | summary i stands for exactly the history range `[i*w, i*w+w)` |
| `SummaryLedger.SummarisedNotSent` | internal/agent/context.go:161-166 | no message is both summarised and sent raw: the summaries stand for exactly the indices `[0, k*w)`, and each of them lies before the first raw message of the request view |
| `SummaryLedger.SpansDisjoint` | internal/agent/context.go:83-101 | two different summaries never cover a common message |
| `SummaryLedger.Apply` | internal/agent/context.go:54-104 | each operation a caller can perform keeps the ledger tracking the manager |
| `SummaryLedger.ReplayTracks` | internal/agent/context.go:54-220 | after any sequence of additions, compressions with any summariser answers, and resets, the summary ranges are contiguous, one window each, clear of the recent window, and hold the summarised messages; the window sizes never change |
| `SummaryLedger.RetryIsIdentical` | internal/agent/context.go:95-98 | after a failed compression the manager is unchanged, and the next attempt makes the identical summariser call on the next unsummarised window |
| `ChatAgent.NewAgent` | internal/agent/agent.go:49-66 | empty history; a system message exactly when the configured prompt is non-empty, holding that prompt |
| `ChatAgent.ApiRole` | internal/agent/agent.go:138-143 | "user" maps to user and every other role to assistant |
| `ChatAgent.BuildMessages` | internal/agent/agent.go:125-152 | `len(history)` messages, plus one when there is a system message; the system message comes first, then each history entry in order with its role mapped and its content kept |
| `ChatAgent.BuildMessagesAppend` | internal/agent/agent.go:72-79 | appending a history entry appends exactly its mapped message to the request list |
| `ChatAgent.Ask` | internal/agent/agent.go:70-122 | the request carries the history with the question already appended, last; a gateway error (with its cause) or an answer without choices (as an empty response) leaves exactly the question added; an answer adds the question and then the first choice as an assistant message, and the response carries the choice, the usage counts and the model |
| `ChatAgent.ClearHistory` | internal/agent/agent.go:160-162 | the history becomes empty while the system message and the configuration stay, so the next request holds at most the system message |
| `ChatAgent.SetSystemPrompt` | internal/agent/agent.go:186-196 | the empty prompt removes the system message and any other prompt replaces it; the history is untouched |
| `ChatAgent.SetSystemPromptRequest` | internal/agent/agent.go:186-196 | setting a non-empty prompt puts exactly that system message in front of the request the agent would send without one |
| `ChatAgent.GetTotalTokens` | internal/agent/agent.go:171-183 | the total is the estimate of the system message, if any, plus the estimates of all history messages |
| `ChatAgent.TotalTokensIsRequestTokens` | internal/agent/agent.go:171-183 | that total equals the estimate of exactly the messages the agent would send |
| `ChatAgent.GetLastMessage` | internal/agent/agent.go:199-206 | the position of the newest assistant message, or none when no message is from the assistant |
| `ChatAgent.SaveData` | internal/agent/agent.go:209-223 | the saved history is the agent's history; the saved prompt is the system message's content when there is one and empty otherwise |
| `ChatAgent.LoadHistory` | internal/agent/agent.go:241-278 | a missing file changes nothing and is not an error; a read or decode error changes nothing and is reported as that kind of error with its cause; a decoded file replaces the history and adopts its prompt only when that prompt is non-empty and the agent has none |
| `ChatAgent.SaveLoadRoundTrip` | internal/agent/agent.go:209-278 | saving an agent and loading what the decoder returns for the saved data into an agent without a prompt restores the history and the system message |
| `TokenUsage.NewTokenStats` | internal/agent/tokens.go:24-30 | all counters and the current context start at zero, with the limit as given |
| `TokenUsage.AddRequest` | internal/agent/tokens.go:33-37 | one more request; prompt and completion totals grow by the arguments; the total is always the sum of the two |
| `TokenUsage.AddRequestsTotals` | internal/agent/tokens.go:33-37 | after any run of requests the counters hold their number and the sums of their token counts |
| `TokenUsage.UpdateContextSize` | internal/agent/tokens.go:46-48 | sets the current context size and changes nothing else |
| `TokenUsage.OverLimitIsNearLimit` | internal/agent/tokens.go:58-66 | with a positive limit, over the limit implies near the limit, so the warning must test the critical case first |
| `TokenUsage.GetRemainingTokens` | internal/agent/tokens.go:69-75 | never negative; positive exactly when under the limit, and then it is the distance to the limit; 0 when over it |
| `TokenUsage.Truncate` | internal/agent/tokens.go:100 | Go's float-to-int conversion rounds toward zero |
| `TokenUsage.BarWidth` | internal/agent/tokens.go:95-97 | the width used is the argument when positive and 50 otherwise |
| `TokenUsage.FilledCell` | internal/agent/tokens.go:107-114 | a filled cell is critical above 90 per cent, a warning above 80 and normal otherwise, never free |
| `TokenUsage.FormatContextBar` | internal/agent/tokens.go:94-121 | exactly the bar width of cells; the filled count never exceeds it; cell i is filled exactly when i is below the filled count; every filled cell has the glyph of the usage level |
| `TokenUsage.EmptyContextEmptyBar` | internal/agent/tokens.go:99-118 | an empty context gives a bar of free cells only |
| `TokenUsage.FullContextFullBar` | internal/agent/tokens.go:99-118 | a context at or over a positive limit fills the whole bar with critical cells |
| `TokenUsage.GetWarningMessage` | internal/agent/tokens.go:124-136 | the critical warning exactly when over the limit, otherwise the near-limit warning exactly when near it, otherwise none; a warning carries the current and the maximum count |
| `TokenUsage.GetModelLimit` | internal/agent/tokens.go:157-162 | the table's value for a known model and 4096 for any other name |
| `TokenUsage.KnownModelLimits` | internal/agent/tokens.go:139-145 | the table holds five distinct models, with limits 128000, 128000, 128000, 8192 and 16385 |
| `ComparisonText.Truncate` | cmd/advent/day5/main.go:430-435 | a string that fits is unchanged; a longer one becomes its first `maxLen - 3` bytes and `"..."`, exactly `maxLen` bytes |
| `ComparisonText.FindSubstring` | cmd/advent/day5/main.go:444-451 | true exactly when the pattern occurs at some position of the string |
| `ComparisonText.Contains` | cmd/advent/day5/main.go:437-442 | false when either string is empty; otherwise true exactly when the pattern occurs, so the shortcuts agree with the full search |
| `ComparisonText.SplitWords` | cmd/advent/day5/main.go:453-473 | word `j` is the maximal run of non-delimiters `s[starts[j]..ends[j]]`; the runs come strictly left to right and every non-delimiter of the input lies in one of them, so the words are all the runs, each once, in order; together they are the input with its delimiters removed; a delimiter-only input gives no word; the result is the reference scan `Final` |
| `ComparisonText.SplitExample` | cmd/advent/day5/main.go:453-473 | on `"a aa"` the scan gives exactly the two words `"a"` and `"aa"`, at `[0,1)` and `[2,4)` |
| `ComparisonText.OnlyDelimitersStripToEmpty` | cmd/advent/day5/main.go:457-466 | a string of delimiters only has nothing left once they are removed |
| `CompressionDemo.Truncate` | cmd/advent/day9/main.go:355-360 | a string that fits is unchanged; a longer one becomes its first `maxLen` bytes and `"..."`, three bytes longer than the limit |
| `CompressionDemo.TruncateTwice` | cmd/advent/day9/main.go:355-360 | a cut string is longer than the limit, yet cutting it again with the same limit changes nothing |
| `CompressionDemo.Dialog` | cmd/advent/day9/main.go:312-339 | a list of turns becomes twice as many messages, user and assistant alternating, user first |
| `CompressionDemo.DialogTurn` | cmd/advent/day9/main.go:312-339 | turn t is message 2t, the question, and message 2t+1, the answer |
| `CompressionDemo.Drive` | cmd/advent/day9/main.go:115-122 | the loop appends every message in order, keeps the window sizes and the existing summaries, records one attempt per message, and keeps the invariant |
| `CompressionDemo.FireStep` | cmd/advent/day9/main.go:115-122 | one loop pass from a steady manager with a working summariser calls it exactly when the new message completes a window; the call covers the next window, whose number is `(n - recentWindow) / w`; one summary is stored; the manager is steady again |
| `CompressionDemo.SteadyCount` | cmd/advent/day9/main.go:115-122 | a steady manager holds as many summaries as whole windows fit before its recent window |
| `CompressionDemo.DriveFiring` | cmd/advent/day9/main.go:115-122 | with a working summariser the attempt after message `n` calls it exactly when `n - recentWindow` is a positive multiple of the window, and the manager ends steady |
| `CompressionDemo.CallRange` | cmd/advent/day9/main.go:115-122 | the call after message `n` summarises window number `(n - recentWindow) / w`, the range `[(number - 1) * w, number * w)` |
| `CompressionDemo.CallSummary` | cmd/advent/day9/main.go:115-122 | the summary made after message `n` ends up stored as number `(n - recentWindow) / w`, and it is that step's first choice |
| `CompressionDemo.CallRendersHistory` | cmd/advent/day9/main.go:115-122 | every call of a run renders a block that the final history still holds at the same place |
| `CompressionDemo.GenerateLongDialog` | cmd/advent/day9/main.go:311-340 | 26 messages, user and assistant alternating, user first |
| `CompressionDemo.QualityDialog` | cmd/advent/day9/main.go:195-210 | 14 messages, user and assistant alternating, user first |
| `CompressionDemo.TenSixScenario` | cmd/advent/day9/main.go:106-137 | windows (10, 6), any 26 messages, a working summariser: calls only after messages 16 and 26, on `[0,10)` and `[10,20)`; two summaries in that order; the view is the summary message and messages 20 to 25 |
| `CompressionDemo.LongDialogScenario` | cmd/advent/day9/main.go:106-137 | with a working summariser, on the long dialog: two summaries, after messages 16 and 26, and a view of 7 messages whose raw part is messages 20 to 25 |
| `CompressionDemo.SixFourScenario` | cmd/advent/day9/main.go:244-259 | windows (6, 4), any 14 messages, a working summariser: a single call after message 10, on `[0,6)`; the view is the summary message and messages 10 to 13, so messages 6 to 9 are neither summarised nor sent |
| `CompressionDemo.QualityScenario` | cmd/advent/day9/main.go:195-259 | with a working summariser, on the quality dialog: one summary, of its first six messages, made after the 10th, and a view of 5 messages whose raw part is messages 10 to 13 |

## Left out

- Timestamps, the API key, the sampling temperature, `ExecutionTime` and the
  context objects: no operation of the model reads them.
- The gateway itself (`CreateChatCompletion` and the HTTP provider): it
  becomes the `Reply` parameter, so its network behaviour, timeouts and
  retries are outside the model.
- Costs and prices (`TotalCost`, `InputPrice`, `OutputPrice`,
  `GetModelPricing`, `calculateCost`, the per-request averages): floating
  point.
- Fixed-width integers: Go's `int` is 64 bits wide, while the model's counters
  and indices are unbounded. No wrap-around is modelled.
- `GetFullHistory`, `GetHistory` and `GetHistorySize`: plain accessors of fields
  the model exposes directly.
- `AutoSave`, and the file and JSON handling of `SaveHistory` and
  `LoadHistory`: I/O. The outcome of reading the file is the `FileRead`
  parameter of `ChatAgent.LoadHistory`.
- Printing, `askQuestion`, and the final questions sent after the runs: they
  only show results.
- ContextWindow.CompressIfNeeded: the summariser call's prompt is the rendered
  dialog without the fixed instruction text wrapped around it. Its model name
  and output cap are not recorded either.
- ContextWindow.CompressIfNeeded: slice capacity is not modelled. Go allows
  the block slice to reach past the history's length up to its capacity, and
  then summarises zero-valued messages. That can only happen with a negative
  recent window. The precondition asks for the block to lie within the length,
  so the model does not cover those states.
- ComparisonText.SplitWords: it takes a sequence of Unicode scalar values.
  Go's `range` over a string decodes each invalid UTF-8 byte as U+FFFD, and
  `string(r)` writes that back as three bytes. Input that is not valid UTF-8 is
  outside the model.
- ChatAgent.SaveLoadRoundTrip: the file decoder is assumed to return exactly
  the saved data. `json.MarshalIndent` replaces invalid UTF-8 in the prompt and
  in message contents with U+FFFD, so the round trip holds only for contents
  that are valid UTF-8.
- ContextWindow.GetStats: the floating-point `CompressionRatio` and
  `CompressionPercent` are not modelled.
- TokenUsage.NewTokenStats: the two prices are not taken, because they only
  feed costs.
- TokenUsage.AddRequest: the cost update is not modelled.
- TokenUsage.FormatContextBar: the usage percentage is computed in exact
  rational arithmetic instead of `float64`, so rounding at the 80 and 90 per
  cent boundaries is not modelled. The brackets and the printed percentage
  around the cells are not modelled either.
- TokenUsage.GetWarningMessage: the warning texts are reduced to their kind
  and the two numbers they print. The near-limit test uses the usage
  percentage in exact rational arithmetic instead of `float64`, so rounding at
  the 80 per cent boundary is not modelled.
- ChatAgent.GetLastMessage: it returns the position of the message instead of
  a pointer to it.
- CompressionDemo.TenSixScenario: it assumes a summariser that always answers.
  A failed attempt is covered by `ContextWindow.CompressIfNeeded` and
  `SummaryLedger.RetryIsIdentical`, not by the scenario.
- CompressionDemo.SixFourScenario: it assumes a summariser that always
  answers, as above.
- CompressionDemo.LongDialogScenario: it assumes a summariser that always
  answers. The day 9 run makes real gateway calls; a failed summary there is
  retried after the next message, so the summaries come later than stated.
- CompressionDemo.QualityScenario: it assumes a summariser that always
  answers, as above.

=== FILE: agent.dfy ===
/** The conversation-history agent (`Agent`).

    The agent keeps the dialog history and an optional system message, and
    talks to the completion gateway once per question. The gateway's answer is
    a parameter of `Ask`; the request the agent would send is part of its result.
 */
module ChatAgent {
  import opened Text
  import opened Chat

  /** The configuration fields the model reads. The API key and the sampling
      temperature are not modelled. */
  datatype AgentConfig = AgentConfig(model: Bytes, maxTokens: int, systemPrompt: Bytes)

  /** `systemMsg` holds the content of the system message when there is one;
      its role is always "system". */
  datatype Agent = Agent(config: AgentConfig, history: seq<Message>, systemMsg: Option<Bytes>)

  /** Every way of setting the system message skips the empty prompt. */
  predicate WellFormed(a: Agent) {
    a.systemMsg.Some? ==> a.systemMsg.value != []
  }

  /** `NewAgent`: empty history; a system message exactly when the configured
      prompt is non-empty. */
  function NewAgent(config: AgentConfig): (a: Agent)
    ensures a.config == config && a.history == []
    ensures a.systemMsg.Some? <==> config.systemPrompt != []
    ensures a.systemMsg.Some? ==> a.systemMsg.value == config.systemPrompt
    ensures WellFormed(a)
  {
    Agent(config, [], if config.systemPrompt != [] then Some(config.systemPrompt) else None)
  }

  /** The API role of a history entry: "user" stays "user", anything else is
      sent as "assistant". */
  function ApiRole(role: Bytes): (r: Bytes)
    ensures r == User || r == Assistant
    ensures r == User <==> role == User
  {
    RolesDistinct();
    if role == User then User else Assistant
  }

  /** `buildMessages`: the system message first, when present, then the whole
      history in order with roles mapped by `ApiRole`. */
  function BuildMessages(a: Agent): (ms: seq<Message>)
    ensures |ms| == |a.history| + (if a.systemMsg.Some? then 1 else 0)
    ensures a.systemMsg.Some? ==> ms[0] == Message(System, a.systemMsg.value)
    ensures a.systemMsg.Some? ==> forall i :: 0 <= i < |a.history| ==>
      ms[i + 1] == Message(ApiRole(a.history[i].role), a.history[i].content)
    ensures a.systemMsg.None? ==> forall i :: 0 <= i < |a.history| ==>
      ms[i] == Message(ApiRole(a.history[i].role), a.history[i].content)
  {
    var head := if a.systemMsg.Some? then [Message(System, a.systemMsg.value)] else [];
    head + MapRoles(a.history)
  }

  /** The history entries as API messages, in order. */
  function MapRoles(h: seq<Message>): (ms: seq<Message>)
    ensures |ms| == |h|
    ensures forall i :: 0 <= i < |h| ==> ms[i] == Message(ApiRole(h[i].role), h[i].content)
  {
    seq(|h|, i requires 0 <= i < |h| => Message(ApiRole(h[i].role), h[i].content))
  }

  /** Appending a history entry appends its mapped message to the request list. */
  lemma BuildMessagesAppend(a: Agent, msg: Message)
    ensures BuildMessages(a.(history := a.history + [msg]))
         == BuildMessages(a) + [Message(ApiRole(msg.role), msg.content)]
  {
    var head := if a.systemMsg.Some? then [Message(System, a.systemMsg.value)] else [];
    assert MapRoles(a.history + [msg]) == MapRoles(a.history) + [Message(ApiRole(msg.role), msg.content)];
    assert head + (MapRoles(a.history) + [Message(ApiRole(msg.role), msg.content)])
        == (head + MapRoles(a.history)) + [Message(ApiRole(msg.role), msg.content)];
  }

  datatype Response = Response(
    content: Bytes,
    tokensUsed: int,
    promptTokens: int,
    completionTokens: int,
    model: Bytes)

  datatype AskError = ApiError(cause: Bytes) | EmptyResponse

  datatype AskResult = Answered(response: Response) | AskFailed(error: AskError)

  datatype AskStep = AskStep(agent: Agent, request: Request, result: AskResult)

  /** `Ask`: the user message joins the history before the gateway is called,
      and stays there even if the call fails; an answer appends one assistant
      message carrying the first choice. */
  function Ask(a: Agent, userMessage: Bytes, reply: Reply): (r: AskStep)
    // the request: everything built from the history that already holds the question
    ensures r.request.model == a.config.model
    ensures r.request.maxTokens == (if a.config.maxTokens > 0 then a.config.maxTokens else 0)
    ensures r.request.messages == BuildMessages(a.(history := a.history + [Message(User, userMessage)]))
    ensures r.request.messages[|r.request.messages| - 1] == Message(User, userMessage)
    // only the history changes
    ensures r.agent.config == a.config && r.agent.systemMsg == a.systemMsg
    // failure: exactly the user message was added
    ensures r.result.AskFailed? <==> reply.Failure? || |reply.choices| == 0
    ensures r.result.AskFailed? ==> r.agent.history == a.history + [Message(User, userMessage)]
    ensures reply.Failure? ==> r.result == AskFailed(ApiError(reply.cause))
    ensures reply.Success? && |reply.choices| == 0 ==> r.result == AskFailed(EmptyResponse)
    // success: the user message, then the assistant's answer
    ensures r.result.Answered? ==>
      && r.agent.history == a.history + [Message(User, userMessage), Message(Assistant, reply.choices[0])]
      && r.result.response == Response(reply.choices[0], reply.usage.totalTokens,
                                       reply.usage.promptTokens, reply.usage.completionTokens, reply.model)
  {
    RolesDistinct();
    var asked := a.(history := a.history + [Message(User, userMessage)]);
    var request := Request(a.config.model, BuildMessages(asked),
                           if a.config.maxTokens > 0 then a.config.maxTokens else 0);
    match reply
    case Failure(cause) => AskStep(asked, request, AskFailed(ApiError(cause)))
    case Success(choices, usage, model) =>
      if |choices| == 0 then
        AskStep(asked, request, AskFailed(EmptyResponse))
      else
        var answer := choices[0];
        var answered := asked.(history := asked.history + [Message(Assistant, answer)]);
        assert answered.history == a.history + [Message(User, userMessage), Message(Assistant, answer)];
        AskStep(answered, request,
                Answered(Response(answer, usage.totalTokens, usage.promptTokens, usage.completionTokens, model)))
  }

  /** `ClearHistory`: the history is emptied; the system message stays. */
  function ClearHistory(a: Agent): (r: Agent)
    ensures r.history == []
    ensures r.systemMsg == a.systemMsg && r.config == a.config
    ensures BuildMessages(r) == (if a.systemMsg.Some? then [Message(System, a.systemMsg.value)] else [])
  {
    a.(history := [])
  }

  /** `SetSystemPrompt`: the empty prompt removes the system message, any
      other replaces it. */
  function SetSystemPrompt(a: Agent, prompt: Bytes): (r: Agent)
    ensures r.history == a.history && r.config == a.config
    ensures r.systemMsg.None? <==> prompt == []
    ensures r.systemMsg.Some? ==> r.systemMsg.value == prompt
    ensures WellFormed(r)
  {
    a.(systemMsg := if prompt == [] then None else Some(prompt))
  }

  /** The number of messages the next request carries grows or shrinks by one
      with the system message, and nothing else moves. */
  lemma SetSystemPromptRequest(a: Agent, prompt: Bytes)
    requires prompt != []
    ensures BuildMessages(SetSystemPrompt(a, prompt))[0] == Message(System, prompt)
    ensures BuildMessages(SetSystemPrompt(a, prompt))[1..] == BuildMessages(SetSystemPrompt(a, []))
  {
  }

  /** `GetTotalTokens`: the estimate over the system message and the history. */
  method GetTotalTokens(a: Agent) returns (total: int)
    ensures total == (if a.systemMsg.Some? then EstimateTokens(a.systemMsg.value) else 0) + SumTokens(a.history)
  {
    total := 0;
    if a.systemMsg.Some? {
      total := total + |a.systemMsg.value| / 3;
    }
    var base := total;
    var i := 0;
    while i < |a.history|
      invariant 0 <= i <= |a.history|
      invariant total == base + SumTokens(a.history[..i])
    {
      SumTokensSplit(a.history[..i], [a.history[i]]);
      assert a.history[..i + 1] == a.history[..i] + [a.history[i]];
      total := total + |a.history[i].content| / 3;
      i := i + 1;
    }
    assert a.history[..i] == a.history;
  }

  /** The estimate covers exactly what `buildMessages` sends. */
  lemma TotalTokensIsRequestTokens(a: Agent)
    ensures SumTokens(BuildMessages(a))
         == (if a.systemMsg.Some? then EstimateTokens(a.systemMsg.value) else 0) + SumTokens(a.history)
  {
    MappedTokens(a.history);
    if a.systemMsg.Some? {
      var sys := [Message(System, a.systemMsg.value)];
      assert BuildMessages(a) == sys + MapRoles(a.history);
      SumTokensSplit(sys, MapRoles(a.history));
      assert sys[1..] == [];
    } else {
      assert BuildMessages(a) == MapRoles(a.history);
    }
  }

  /** Mapping the roles does not change the estimate. */
  lemma {:induction false} MappedTokens(h: seq<Message>)
    ensures SumTokens(MapRoles(h)) == SumTokens(h)
  {
    if h != [] {
      MappedTokens(h[1..]);
      assert MapRoles(h)[1..] == MapRoles(h[1..]);
    }
  }

  /** `GetLastMessage`: the position of the newest assistant message, if any. */
  method GetLastMessage(a: Agent) returns (r: Option<nat>)
    ensures r.Some? ==>
      && r.value < |a.history|
      && a.history[r.value].role == Assistant
      && forall j :: r.value < j < |a.history| ==> a.history[j].role != Assistant
    ensures r.None? ==> forall j :: 0 <= j < |a.history| ==> a.history[j].role != Assistant
  {
    var i := |a.history| - 1;
    while i >= 0
      invariant -1 <= i < |a.history|
      invariant forall j :: i < j < |a.history| ==> a.history[j].role != Assistant
    {
      if a.history[i].role == Assistant {
        return Some(i);
      }
      i := i - 1;
    }
    return None;
  }

  /** The fields `SaveHistory` writes, without the timestamp: the system prompt
      (empty when there is none) and the history. */
  datatype SavedData = SavedData(systemPrompt: Bytes, history: seq<Message>)

  function SaveData(a: Agent): (d: SavedData)
    ensures d.history == a.history
    ensures a.systemMsg.Some? ==> d.systemPrompt == a.systemMsg.value
    ensures a.systemMsg.None? ==> d.systemPrompt == []
    ensures WellFormed(a) ==> (d.systemPrompt == [] <==> a.systemMsg.None?)
  {
    SavedData(if a.systemMsg.Some? then a.systemMsg.value else [], a.history)
  }

  /** What reading the history file produced. */
  datatype FileRead =
    | NotExist
    | ReadFailed(cause: Bytes)
    | DecodeFailed(cause: Bytes)
    | Decoded(data: SavedData)

  datatype LoadError = ReadError(cause: Bytes) | DecodeError(cause: Bytes)

  datatype LoadStep = LoadStep(agent: Agent, error: Option<LoadError>)

  /** `LoadHistory`: the loaded history replaces the current one; the saved
      system prompt is adopted only when it is non-empty and the agent has
      none. A missing file is not an error and changes nothing. */
  function LoadHistory(a: Agent, file: FileRead): (r: LoadStep)
    ensures r.error.None? <==> file.NotExist? || file.Decoded?
    ensures file.ReadFailed? ==> r.error == Some(ReadError(file.cause))
    ensures file.DecodeFailed? ==> r.error == Some(DecodeError(file.cause))
    ensures !file.Decoded? ==> r.agent == a
    ensures file.Decoded? ==>
      && r.agent.history == file.data.history
      && r.agent.config == a.config
      && (a.systemMsg.Some? ==> r.agent.systemMsg == a.systemMsg)
      && (a.systemMsg.None? ==> (r.agent.systemMsg.Some? <==> file.data.systemPrompt != []))
      && (r.agent.systemMsg.Some? && a.systemMsg.None? ==> r.agent.systemMsg.value == file.data.systemPrompt)
    ensures WellFormed(a) ==> WellFormed(r.agent)
  {
    match file
    case NotExist => LoadStep(a, None)
    case ReadFailed(cause) => LoadStep(a, Some(ReadError(cause)))
    case DecodeFailed(cause) => LoadStep(a, Some(DecodeError(cause)))
    case Decoded(data) =>
      var adopt := data.systemPrompt != [] && a.systemMsg.None?;
      LoadStep(a.(history := data.history,
                  systemMsg := if adopt then Some(data.systemPrompt) else a.systemMsg), None)
  }

  /** Saving an agent and loading the result into an agent without a system
      prompt restores both the history and the system message. */
  lemma SaveLoadRoundTrip(a: Agent, config: AgentConfig)
    requires WellFormed(a)
    requires config.systemPrompt == []
    ensures var loaded := LoadHistory(NewAgent(config), Decoded(SaveData(a)));
      && loaded.error.None?
      && loaded.agent.history == a.history
      && loaded.agent.systemMsg == a.systemMsg
  {
  }
}

=== FILE: chat.dfy ===
/** The vocabulary shared by the agent and the context manager: messages,
    role names, the completion gateway's request and reply, and the fixed
    "three bytes per token" estimate.
 */
module Chat {
  import opened Text

  /** One entry of a conversation. The source also stores a timestamp, which no
      operation of the model reads. */
  datatype Message = Message(role: Bytes, content: Bytes)

  const User: Bytes := Utf8("user")
  const Assistant: Bytes := Utf8("assistant")
  const System: Bytes := Utf8("system")

  /** The three role names are different byte strings. */
  lemma RolesDistinct()
    ensures User != Assistant && User != System && Assistant != System
  {
    Utf8Ascii("user");
    Utf8Ascii("assistant");
    Utf8Ascii("system");
    assert User[0] != System[0];
  }

  /** Token counts the gateway reports for one completion. */
  datatype Usage = Usage(promptTokens: int, completionTokens: int, totalTokens: int)

  /** What the completion gateway answered to one request: a transport or API
      error, or a response carrying zero or more choices. */
  datatype Reply =
    | Failure(cause: Bytes)
    | Success(choices: seq<Bytes>, usage: Usage, model: Bytes)

  /** A chat-completion request. `maxTokens == 0` means the field is not set. */
  datatype Request = Request(model: Bytes, messages: seq<Message>, maxTokens: int)

  /** The source's token estimate for one text: its byte length divided by three. */
  function EstimateTokens(content: Bytes): (t: nat)
    ensures 3 * t <= |content| < 3 * t + 3
  {
    |content| / 3
  }

  /** The estimate summed over the contents of a list of messages. */
  function SumTokens(ms: seq<Message>): nat {
    if ms == [] then 0 else EstimateTokens(ms[0].content) + SumTokens(ms[1..])
  }

  /** The estimate summed over a list of texts. */
  function SumTextTokens(ts: seq<Bytes>): nat {
    if ts == [] then 0 else EstimateTokens(ts[0]) + SumTextTokens(ts[1..])
  }

  /** The sum over a list splits at any point. */
  lemma {:induction false} SumTokensSplit(a: seq<Message>, b: seq<Message>)
    ensures SumTokens(a + b) == SumTokens(a) + SumTokens(b)
  {
    if a == [] {
      assert a + b == b;
    } else {
      assert (a + b)[1..] == a[1..] + b;
      SumTokensSplit(a[1..], b);
    }
  }
}

=== FILE: comparison_text.dfy ===
/** The string helpers of the model-comparison program: truncation for table
    cells, substring search for keyword checks, and word splitting for word
    counts. `truncate`, `contains` and `findSubstring` work on bytes like Go's
    `len` and slicing; `splitWords` ranges over runes, so it works on `string`.
 */
module ComparisonText {
  import opened Text

  /** `truncate`: a string that fits is returned unchanged; a longer one is cut
      to `maxLen - 3` bytes and given an ellipsis, so it is exactly `maxLen`
      bytes long. The cut panics in Go unless `maxLen >= 3`. */
  function Truncate(s: Bytes, maxLen: int): (r: Bytes)
    requires |s| <= maxLen || maxLen >= 3
    ensures |s| <= maxLen ==> r == s
    ensures |s| > maxLen ==>
      && |r| == maxLen
      && r[..maxLen - 3] == s[..maxLen - 3]
      && r[maxLen - 3..] == Ellipsis
    ensures |r| <= |s|
  {
    if |s| <= maxLen then s else s[..maxLen - 3] + Ellipsis
  }

  /** `t` sits in `s` at position `i`. */
  ghost predicate OccursAt(s: Bytes, t: Bytes, i: int) {
    0 <= i <= |s| - |t| && s[i..i + |t|] == t
  }

  ghost predicate Occurs(s: Bytes, t: Bytes) {
    exists i :: OccursAt(s, t, i)
  }

  /** `findSubstring`: tries every start position from the left. */
  method FindSubstring(s: Bytes, t: Bytes) returns (found: bool)
    ensures found <==> Occurs(s, t)
  {
    var i := 0;
    while i <= |s| - |t|
      invariant 0 <= i
      invariant |t| <= |s| ==> i <= |s| - |t| + 1
      invariant forall j :: 0 <= j < i ==> !OccursAt(s, t, j)
    {
      if s[i..i + |t|] == t {
        assert OccursAt(s, t, i);
        return true;
      }
      i := i + 1;
    }
    found := false;
    assert forall j :: !OccursAt(s, t, j) by {
      forall j ensures !OccursAt(s, t, j) {
        if 0 <= j <= |s| - |t| {
          assert j < i;
        }
      }
    }
  }

  /** `contains`: false when either string is empty; otherwise the equality,
      prefix and suffix shortcuts and the full search together decide
      whether `t` occurs in `s`. */
  method Contains(s: Bytes, t: Bytes) returns (r: bool)
    ensures r <==> |s| > 0 && |t| > 0 && Occurs(s, t)
  {
    if |s| == 0 || |t| == 0 {
      return false;
    }
    if s == t {
      assert OccursAt(s, t, 0);
      return true;
    }
    if |s| <= |t| {
      assert !OccursAt(s, t, 0) by {
        if |s| == |t| {
          assert s[0..|t|] == s;
        }
      }
      assert forall j :: OccursAt(s, t, j) ==> j == 0;
      return false;
    }
    if s[..|t|] == t {
      assert OccursAt(s, t, 0);
      return true;
    }
    if s[|s| - |t|..] == t {
      assert OccursAt(s, t, |s| - |t|);
      return true;
    }
    r := FindSubstring(s, t);
  }

  /** The characters `splitWords` splits at. */
  predicate IsDelimiter(c: char) {
    c == ' ' || c == '\n' || c == '\t' || c == '.' || c == ',' || c == '!' || c == '?'
  }

  ghost predicate IsWord(w: string) {
    |w| > 0 && forall k :: 0 <= k < |w| ==> !IsDelimiter(w[k])
  }

  /** `s` with every delimiter removed. */
  function StripDelimiters(s: string): string {
    if s == [] then []
    else StripDelimiters(s[..|s| - 1]) + (if IsDelimiter(s[|s| - 1]) then [] else [s[|s| - 1]])
  }

  function Flatten(words: seq<string>): string {
    if words == [] then [] else Flatten(words[..|words| - 1]) + words[|words| - 1]
  }

  /** `w` is the maximal run of non-delimiters `s[a..b]`. */
  ghost predicate IsRun(s: string, w: string, a: int, b: int) {
    && 0 <= a < b <= |s|
    && w == s[a..b]
    && (a == 0 || IsDelimiter(s[a - 1]))
    && (b == |s| || IsDelimiter(s[b]))
  }

  ghost predicate IsMaximalRun(s: string, w: string) {
    exists a, b :: IsRun(s, w, a, b)
  }

  /** `words` are words of `s`, the `j`-th one being the run `s[starts[j]..ends[j]]`. */
  ghost predicate RunsOf(s: string, words: seq<string>, starts: seq<int>, ends: seq<int>) {
    && |starts| == |words| && |ends| == |words|
    && forall j :: 0 <= j < |words| ==> IsRun(s, words[j], starts[j], ends[j]) && IsWord(words[j])
  }

  /** Each run ends before any later one starts, and all of them before `bound`. */
  ghost predicate InOrder(starts: seq<int>, ends: seq<int>, bound: int) {
    && |starts| == |ends|
    && (forall j, j' :: 0 <= j < j' < |ends| ==> ends[j] < starts[j'])
    && (forall j :: 0 <= j < |ends| ==> ends[j] < bound)
  }

  /** Position `k` lies inside one of the runs. */
  ghost predicate InSomeRun(starts: seq<int>, ends: seq<int>, k: int)
    requires |starts| == |ends|
  {
    exists j :: 0 <= j < |starts| && starts[j] <= k < ends[j]
  }

  /** Every non-delimiter of `s` before `upto` lies inside one of the runs. */
  ghost predicate Covers(s: string, starts: seq<int>, ends: seq<int>, upto: int) {
    && |starts| == |ends|
    && forall k {:trigger InSomeRun(starts, ends, k)} ::
         0 <= k < upto && k < |s| && !IsDelimiter(s[k]) ==> InSomeRun(starts, ends, k)
  }

  /** `splitWords`: the maximal runs of non-delimiters, in order. The run
      positions `starts` and `ends` are returned for the proof only: word `j`
      is the run `s[starts[j]..ends[j]]`, the runs come from left to right,
      and every non-delimiter of `s` lies in one of them, so there is one word
      per run and none twice. */
  method SplitWords(s: string) returns (words: seq<string>, ghost starts: seq<int>, ghost ends: seq<int>)
    ensures forall j :: 0 <= j < |words| ==> IsWord(words[j])
    ensures Flatten(words) == StripDelimiters(s)
    ensures forall j :: 0 <= j < |words| ==> IsMaximalRun(s, words[j])
    ensures (forall k :: 0 <= k < |s| ==> IsDelimiter(s[k])) ==> words == []
    ensures RunsOf(s, words, starts, ends)
    ensures forall j, j' :: 0 <= j < j' < |words| ==> ends[j] < starts[j']
    ensures forall k :: 0 <= k < |s| && !IsDelimiter(s[k]) ==>
              exists j :: 0 <= j < |words| && starts[j] <= k < ends[j]
    ensures words == Final(s).words
  {
    var open: string;
    words, open := ScanWords(s);
    words, starts, ends := Close(words, open), Final(s).starts, Final(s).ends;
    assert words == Final(s).words;
    FinalRuns(s);
    FinalOrder(s);
    FinalCovers(s);
    FinalText(s);
    RunsAreMaximal(s, words, starts, ends);
  }

  /** The loop of `splitWords`: the words closed by the end of `s`, and the
      word still open there. */
  method ScanWords(s: string) returns (words: seq<string>, word: string)
    ensures words == Scan(s, |s|).words && word == Scan(s, |s|).word
  {
    words, word := [], [];
    var i := 0;
    while i < |s|
      invariant 0 <= i <= |s|
      invariant words == Scan(s, i).words && word == Scan(s, i).word
    {
      if IsDelimiter(s[i]) {
        words, word := Close(words, word), [];
      } else {
        word := word + [s[i]];
      }
      i := i + 1;
    }
  }

  /** A delimiter closes the current word: it joins the words unless it is empty. */
  function Close(words: seq<string>, word: string): seq<string> {
    if |word| > 0 then words + [word] else words
  }

  /** The position recorded for a closed word, when there is one. */
  ghost function CloseAt(positions: seq<int>, word: string, p: int): seq<int> {
    if |word| > 0 then positions + [p] else positions
  }

  /** The state of the scan: the words closed so far, the open word, where it
      starts, and (for the proof) where each closed word starts and ends. */
  datatype ScanState = ScanState(words: seq<string>, word: string, start: int,
                                 starts: seq<int>, ends: seq<int>)

  /** One character of the scan: a delimiter closes the open word, any other
      character extends it. */
  ghost function Step(s: string, i: int, st: ScanState): ScanState
    requires 0 <= i < |s|
  {
    if IsDelimiter(s[i]) then
      ScanState(Close(st.words, st.word), [], i + 1,
                CloseAt(st.starts, st.word, st.start), CloseAt(st.ends, st.word, i))
    else
      st.(word := st.word + [s[i]])
  }

  /** The scan of `splitWords` after its first `i` characters. */
  ghost function Scan(s: string, i: nat): ScanState
    requires i <= |s|
  {
    if i == 0 then ScanState([], [], 0, [], []) else Step(s, i - 1, Scan(s, i - 1))
  }

  /** The end of the input closes the open word like a delimiter would. */
  ghost function Final(s: string): ScanState {
    var st := Scan(s, |s|);
    ScanState(Close(st.words, st.word), [], |s| + 1,
              CloseAt(st.starts, st.word, st.start), CloseAt(st.ends, st.word, |s|))
  }

  /** `"a aa"` splits into two words, `"a"` and `"aa"`, at positions
      `[0, 1)` and `[2, 4)`. */
  lemma SplitExample()
    ensures Final("a aa").words == ["a", "aa"]
    ensures Final("a aa").starts == [0, 2] && Final("a aa").ends == [1, 4]
  {
    var s := "a aa";
    assert Scan(s, 1) == ScanState([], "a", 0, [], []);
    assert Scan(s, 2) == ScanState(["a"], [], 2, [0], [1]);
    assert Scan(s, 3) == ScanState(["a"], "a", 2, [0], [1]);
    assert Scan(s, 4) == ScanState(["a"], "aa", 2, [0], [1]);
  }

  /** After `i` characters the open word is the run of non-delimiters
      `s[start..i]`, which starts the input or follows a delimiter. */
  ghost predicate OpenWord(s: string, i: int, st: ScanState) {
    && 0 <= st.start <= i <= |s|
    && st.word == s[st.start..i]
    && (forall k :: st.start <= k < i ==> !IsDelimiter(s[k]))
    && (st.start == 0 || IsDelimiter(s[st.start - 1]))
  }

  lemma {:induction false} ScanOpenWord(s: string, i: nat)
    requires i <= |s|
    ensures OpenWord(s, i, Scan(s, i))
  {
    if i > 0 {
      ScanOpenWord(s, i - 1);
      var st := Scan(s, i - 1);
      if !IsDelimiter(s[i - 1]) {
        assert s[st.start..i] == s[st.start..i - 1] + [s[i - 1]];
      }
    }
  }

  /** The closed words are runs of `s`. */
  lemma {:induction false} ScanRuns(s: string, i: nat)
    requires i <= |s|
    ensures var st := Scan(s, i); RunsOf(s, st.words, st.starts, st.ends)
  {
    if i > 0 {
      ScanRuns(s, i - 1);
      ScanOpenWord(s, i - 1);
      var st := Scan(s, i - 1);
      if IsDelimiter(s[i - 1]) && |st.word| > 0 {
        EmitRun(s, st.words, st.starts, st.ends, st.start, i - 1);
      }
    }
  }

  /** The closed words come in order, all before the open word. */
  lemma {:induction false} ScanOrder(s: string, i: nat)
    requires i <= |s|
    ensures var st := Scan(s, i); InOrder(st.starts, st.ends, st.start)
  {
    if i > 0 {
      ScanOrder(s, i - 1);
      ScanOpenWord(s, i - 1);
      var st := Scan(s, i - 1);
      if IsDelimiter(s[i - 1]) {
        if |st.word| > 0 {
          OrderAppend(st.starts, st.ends, st.start, i - 1, i);
        } else {
          OrderWiden(st.starts, st.ends, st.start, i);
        }
      }
    }
  }

  /** Every non-delimiter before the open word lies in a closed word. */
  lemma {:induction false} ScanCovers(s: string, i: nat)
    requires i <= |s|
    ensures var st := Scan(s, i); Covers(s, st.starts, st.ends, st.start)
  {
    if i > 0 {
      ScanCovers(s, i - 1);
      ScanRuns(s, i - 1);
      ScanOpenWord(s, i - 1);
      var st := Scan(s, i - 1);
      if IsDelimiter(s[i - 1]) {
        if |st.word| > 0 {
          CoverAppend(s, st.starts, st.ends, st.start, i - 1, i);
        } else {
          CoverDelimiter(s, st.starts, st.ends, i - 1);
        }
      }
    }
  }

  /** The closed words and the open word spell out `s[..i]` without its delimiters. */
  lemma {:induction false} ScanText(s: string, i: nat)
    requires i <= |s|
    ensures var st := Scan(s, i); Flatten(st.words) + st.word == StripDelimiters(s[..i])
  {
    if i == 0 {
      assert s[..0] == [];
    } else {
      ScanText(s, i - 1);
      StripStep(s, i - 1);
      var st := Scan(s, i - 1);
      var next := Scan(s, i);
      var before := StripDelimiters(s[..i - 1]);
      assert Flatten(st.words) + st.word == before;
      if IsDelimiter(s[i - 1]) {
        assert StripDelimiters(s[..i]) == before;
        assert next.word == [] && next.words == Close(st.words, st.word);
        if |st.word| > 0 {
          FlattenAppend(st.words, st.word);
        }
        assert Flatten(next.words) == before;
      } else {
        assert StripDelimiters(s[..i]) == before + [s[i - 1]];
        assert next.words == st.words && next.word == st.word + [s[i - 1]];
        assert Flatten(st.words) + (st.word + [s[i - 1]]) == before + [s[i - 1]];
      }
    }
  }

  lemma FinalRuns(s: string)
    ensures RunsOf(s, Final(s).words, Final(s).starts, Final(s).ends)
  {
    ScanRuns(s, |s|);
    ScanOpenWord(s, |s|);
    var st := Scan(s, |s|);
    if |st.word| > 0 {
      EmitRun(s, st.words, st.starts, st.ends, st.start, |s|);
    }
  }

  lemma FinalOrder(s: string)
    ensures var f := Final(s);
      |f.starts| == |f.words| && |f.ends| == |f.words| &&
      forall j, j' :: 0 <= j < j' < |f.words| ==> f.ends[j] < f.starts[j']
  {
    FinalRuns(s);
    ScanOrder(s, |s|);
    ScanOpenWord(s, |s|);
    var st := Scan(s, |s|);
    if |st.word| > 0 {
      OrderAppend(st.starts, st.ends, st.start, |s|, |s| + 1);
    }
  }

  lemma FinalCovers(s: string)
    ensures var f := Final(s);
      |f.starts| == |f.words| && |f.ends| == |f.words| &&
      forall k :: 0 <= k < |s| && !IsDelimiter(s[k]) ==>
        exists j :: 0 <= j < |f.words| && f.starts[j] <= k < f.ends[j]
  {
    FinalRuns(s);
    ScanCovers(s, |s|);
    ScanOpenWord(s, |s|);
    var st := Scan(s, |s|);
    var f := Final(s);
    if |st.word| > 0 {
      CoverAppend(s, st.starts, st.ends, st.start, |s|, |s|);
    }
    forall k | 0 <= k < |s| && !IsDelimiter(s[k])
      ensures exists j :: 0 <= j < |f.words| && f.starts[j] <= k < f.ends[j]
    {
      assert InSomeRun(f.starts, f.ends, k);
    }
  }

  lemma FinalText(s: string)
    ensures Flatten(Final(s).words) == StripDelimiters(s)
  {
    ScanText(s, |s|);
    assert s[..|s|] == s;
    var st := Scan(s, |s|);
    if |st.word| > 0 {
      FlattenAppend(st.words, st.word);
    }
  }

  /** Appending the run `[start, end)` keeps the runs in order. */
  lemma OrderAppend(starts: seq<int>, ends: seq<int>, start: int, end: int, bound: int)
    requires InOrder(starts, ends, start)
    requires start <= end < bound
    ensures InOrder(starts + [start], ends + [end], bound)
  {
    var ss, es := starts + [start], ends + [end];
    forall j, j' | 0 <= j < j' < |es| ensures es[j] < ss[j'] {
      assert es[j] == ends[j];
      if j' < |starts| {
        assert ss[j'] == starts[j'];
      }
    }
  }

  /** Runs in order before `bound` are in order before any larger bound. */
  lemma OrderWiden(starts: seq<int>, ends: seq<int>, bound: int, bound': int)
    requires InOrder(starts, ends, bound)
    requires bound <= bound'
    ensures InOrder(starts, ends, bound')
  {
  }

  /** Appending the run `[start, end)` covers every non-delimiter before `upto`
      when the gap `[end, upto)` holds none. */
  lemma CoverAppend(s: string, starts: seq<int>, ends: seq<int>, start: int, end: int, upto: int)
    requires Covers(s, starts, ends, start)
    requires 0 <= start <= end <= upto <= |s|
    requires forall k :: end <= k < upto ==> IsDelimiter(s[k])
    ensures Covers(s, starts + [start], ends + [end], upto)
  {
    var ss, es := starts + [start], ends + [end];
    forall k | 0 <= k < upto && k < |s| && !IsDelimiter(s[k])
      ensures InSomeRun(ss, es, k)
    {
      if k < start {
        assert InSomeRun(starts, ends, k);
        var j :| 0 <= j < |starts| && starts[j] <= k < ends[j];
        assert ss[j] == starts[j] && es[j] == ends[j];
      } else {
        assert ss[|starts|] <= k < es[|starts|];
      }
    }
  }

  /** A delimiter right after the covered prefix extends it. */
  lemma CoverDelimiter(s: string, starts: seq<int>, ends: seq<int>, i: int)
    requires Covers(s, starts, ends, i)
    requires 0 <= i < |s| && IsDelimiter(s[i])
    ensures Covers(s, starts, ends, i + 1)
  {
  }

  /** Words found as runs, whose text is all of `s` but its delimiters, are
      maximal runs, and there are none when `s` holds only delimiters. */
  lemma RunsAreMaximal(s: string, words: seq<string>, starts: seq<int>, ends: seq<int>)
    requires RunsOf(s, words, starts, ends)
    requires Flatten(words) == StripDelimiters(s)
    ensures forall j :: 0 <= j < |words| ==> IsWord(words[j]) && IsMaximalRun(s, words[j])
    ensures (forall k :: 0 <= k < |s| ==> IsDelimiter(s[k])) ==> words == []
  {
    forall j | 0 <= j < |words| ensures IsWord(words[j]) && IsMaximalRun(s, words[j]) {
      assert IsRun(s, words[j], starts[j], ends[j]);
    }
    if forall k :: 0 <= k < |s| ==> IsDelimiter(s[k]) {
      OnlyDelimitersStripToEmpty(s);
      FlattenLength(words);
    }
  }

  /** A maximal run of non-delimiters ending at `i` extends the runs found so far. */
  lemma EmitRun(s: string, words: seq<string>, starts: seq<int>, ends: seq<int>, start: int, i: int)
    requires RunsOf(s, words, starts, ends)
    requires 0 <= start < i <= |s|
    requires forall k :: start <= k < i ==> !IsDelimiter(s[k])
    requires start == 0 || IsDelimiter(s[start - 1])
    requires i == |s| || IsDelimiter(s[i])
    ensures RunsOf(s, words + [s[start..i]], starts + [start], ends + [i])
  {
    var w := s[start..i];
    assert IsWord(w) by {
      forall k | 0 <= k < |w| ensures !IsDelimiter(w[k]) {
        assert w[k] == s[start + k];
      }
    }
    assert IsRun(s, w, start, i);
  }

  lemma StripStep(s: string, i: nat)
    requires i < |s|
    ensures StripDelimiters(s[..i + 1])
         == StripDelimiters(s[..i]) + (if IsDelimiter(s[i]) then [] else [s[i]])
  {
    assert s[..i + 1][..i] == s[..i];
  }

  lemma FlattenAppend(words: seq<string>, w: string)
    ensures Flatten(words + [w]) == Flatten(words) + w
  {
    assert (words + [w])[..|words|] == words;
  }

  /** A string of delimiters only has nothing left once they are stripped,
      so `splitWords` finds no word in it. */
  lemma {:induction false} OnlyDelimitersStripToEmpty(s: string)
    requires forall k :: 0 <= k < |s| ==> IsDelimiter(s[k])
    ensures StripDelimiters(s) == []
  {
    if s != [] {
      OnlyDelimitersStripToEmpty(s[..|s| - 1]);
    }
  }

  /** A list of non-empty words flattens to at least as many characters as it has words. */
  lemma {:induction false} FlattenLength(words: seq<string>)
    requires forall j :: 0 <= j < |words| ==> |words[j]| > 0
    ensures |Flatten(words)| >= |words|
  {
    if words != [] {
      FlattenLength(words[..|words| - 1]);
    }
  }
}

=== FILE: compression_demo.dfy ===
/** The compression demonstrations: a long dialog fed to a manager one message
    at a time, with a compression attempt after each message, and the string
    cut used for the side-by-side summary.

    The summariser answers are parameters (one `Reply` per message), so the
    scenarios below hold for every run in which the summariser succeeds.
 */
module CompressionDemo {
  import opened Text
  import opened Chat
  import opened ContextWindow

  /** `truncate` of this program: a string that fits is returned unchanged; a
      longer one keeps its first `maxLen` bytes and gets an ellipsis, so the
      result is three bytes longer than `maxLen`. The cut panics in Go unless
      `maxLen >= 0`. */
  function Truncate(s: Bytes, maxLen: int): (r: Bytes)
    requires |s| <= maxLen || maxLen >= 0
    ensures |s| <= maxLen ==> r == s
    ensures |s| > maxLen ==>
      && |r| == maxLen + 3
      && r[..maxLen] == s[..maxLen]
      && r[maxLen..] == Ellipsis
  {
    if |s| <= maxLen then s else s[..maxLen] + Ellipsis
  }

  /** Cutting a cut string again with the same limit changes nothing, although
      the cut string itself is longer than the limit. */
  lemma TruncateTwice(s: Bytes, maxLen: int)
    requires |s| <= maxLen || maxLen >= 0
    ensures |s| > maxLen ==> |Truncate(s, maxLen)| > maxLen
    ensures Truncate(Truncate(s, maxLen), maxLen) == Truncate(s, maxLen)
  {
    if |s| > maxLen {
      var once := Truncate(s, maxLen);
      assert once[..maxLen] == s[..maxLen];
    }
  }

  /** One user turn and the assistant's answer. */
  datatype Turn = Turn(question: string, answer: string)

  /** The messages of a list of turns: user and assistant alternate, starting
      with the user, and each text is stored as its UTF-8 bytes. */
  function Dialog(turns: seq<Turn>): (ms: seq<Message>)
    ensures |ms| == 2 * |turns|
    ensures forall i :: 0 <= i < |ms| ==> ms[i].role == (if i % 2 == 0 then User else Assistant)
  {
    seq(2 * |turns|, i requires 0 <= i < 2 * |turns| =>
      if i % 2 == 0 then Message(User, Utf8(turns[i / 2].question))
      else Message(Assistant, Utf8(turns[i / 2].answer)))
  }

  /** Turn t of the list is messages 2t (the question) and 2t+1 (the answer). */
  lemma DialogTurn(turns: seq<Turn>, t: nat)
    requires t < |turns|
    ensures Dialog(turns)[2 * t] == Message(User, Utf8(turns[t].question))
    ensures Dialog(turns)[2 * t + 1] == Message(Assistant, Utf8(turns[t].answer))
  {
    assert (2 * t) % 2 == 0 && (2 * t) / 2 == t;
    assert (2 * t + 1) % 2 == 1 && (2 * t + 1) / 2 == t;
  }

  /** What a run of the demonstration loop produced: the final manager and,
      for each message, the summariser call made right after adding it, if any. */
  datatype Run = Run(manager: Manager, calls: seq<Option<SummaryCall>>)

  /** One pass of the loop body: add the message, then try to compress with the
      summariser's reply. */
  function Step(m: Manager, msg: Message, reply: Reply): (r: CompressStep)
    requires m.compressionWindow >= 0 && m.recentWindow >= 0
    ensures r.manager.fullHistory == m.fullHistory + [msg]
    ensures r.manager.compressionWindow == m.compressionWindow && r.manager.recentWindow == m.recentWindow
  {
    var added := AddMessage(m, msg.role, msg.content);
    WindowsKeepSliceInBounds(added);
    CompressIfNeeded(added, reply)
  }

  /** The demonstration loop: each message is added, then `CompressIfNeeded` runs
      with that step's summariser reply. A failed compression is reported and
      the loop goes on. */
  function Drive(m: Manager, msgs: seq<Message>, replies: seq<Reply>): (r: Run)
    requires m.compressionWindow >= 0 && m.recentWindow >= 0
    requires |replies| == |msgs|
    ensures r.manager.fullHistory == m.fullHistory + msgs
    ensures r.manager.compressionWindow == m.compressionWindow
    ensures r.manager.recentWindow == m.recentWindow
    ensures |r.calls| == |msgs|
    ensures |r.manager.summaries| >= |m.summaries|
    ensures r.manager.summaries[..|m.summaries|] == m.summaries
    ensures Inv(m) ==> Inv(r.manager)
    decreases |msgs|
  {
    if msgs == [] then
      Run(m, [])
    else
      var step := Step(m, msgs[0], replies[0]);
      var rest := Drive(step.manager, msgs[1..], replies[1..]);
      assert m.fullHistory + msgs == step.manager.fullHistory + msgs[1..];
      Run(rest.manager, [step.call] + rest.calls)
  }

  /** Every reply carries a summary. */
  predicate AllOk(replies: seq<Reply>) {
    forall i :: 0 <= i < |replies| ==> replies[i].Success? && |replies[i].choices| > 0
  }

  /** Between compressions the unsummarised messages outside the recent window
      are fewer than one window. */
  ghost predicate Steady(m: Manager) {
    Inv(m) && RecentStart(m) < CompressedCount(m) + m.compressionWindow
  }

  /** A history of `n` messages has just completed a window outside the recent
      window. */
  predicate Fires(n: int, compressionWindow: int, recentWindow: int) {
    compressionWindow > 0 && n > recentWindow && (n - recentWindow) % compressionWindow == 0
  }

  lemma MulAtLeast(k: int, d: int)
    requires k >= 1 && d > 0
    ensures k * d >= d
  {
    assert k * d == (k - 1) * d + d;
  }

  lemma FactorBound(e: int, d: int)
    requires d > 0
    ensures e != 0 ==> e * d >= d || e * d <= -d
  {
    if e > 0 {
      MulAtLeast(e, d);
    } else if e < 0 {
      MulAtLeast(-e, d);
      assert e * d == -((-e) * d);
    }
  }

  /** Quotient and remainder are the only ones with the remainder in range. */
  lemma DivModUnique(x: int, d: int, q: int, r: int)
    requires d > 0 && 0 <= r < d && x == q * d + r
    ensures x / d == q && x % d == r
  {
    var q' := x / d;
    var r' := x % d;
    assert (q' - q) * d == r - r' by {
      assert x == q' * d + r';
      assert (q' - q) * d == q' * d - q * d;
    }
    FactorBound(q' - q, d);
  }

  /** One loop step from a steady manager with a successful summariser: the
      step calls the summariser exactly when the new message completes a
      window; that call summarises the next window, whose number is
      `(n - recentWindow) / w`, and stores one summary; the manager is steady
      again. */
  lemma FireStep(m: Manager, msg: Message, reply: Reply)
    requires Steady(m)
    requires reply.Success? && |reply.choices| > 0
    ensures var step := Step(m, msg, reply);
      var n := |m.fullHistory| + 1;
      var k := |m.summaries|;
      var w := m.compressionWindow;
      && (step.call.Some? <==> Fires(n, w, m.recentWindow))
      && (step.call.Some? ==>
            && (n - m.recentWindow) / w == k + 1
            && step.call.value.start == k * w
            && step.call.value.end == k * w + w
            && step.manager.summaries == m.summaries + [reply.choices[0]])
      && Steady(step.manager)
  {
    var added := AddMessage(m, msg.role, msg.content);
    var n := |added.fullHistory|;
    var w := m.compressionWindow;
    var rw := m.recentWindow;
    var k := |m.summaries|;
    WindowsKeepSliceInBounds(added);
    assert (k + 1) * w == k * w + w;
    assert CompressedCount(added) == k * w;
    if n - rw == (k + 1) * w {
      DivModUnique(n - rw, w, k + 1, 0);
    } else if n > rw {
      DivModUnique(n - rw, w, k, n - rw - k * w);
    }
  }

  /** A loop step with a successful summariser keeps a manager steady. */
  lemma StepKeepsSteady(m: Manager, msg: Message, reply: Reply)
    requires Steady(m)
    requires reply.Success? && |reply.choices| > 0
    ensures Steady(Step(m, msg, reply).manager)
    ensures |Step(m, msg, reply).manager.fullHistory| == |m.fullHistory| + 1
  {
    FireStep(m, msg, reply);
  }

  /** A loop step with a successful summariser calls the summariser exactly
      when the new message completes a window, and keeps the manager steady. */
  lemma StepFires(m: Manager, msg: Message, reply: Reply)
    requires Steady(m)
    requires reply.Success? && |reply.choices| > 0
    ensures Step(m, msg, reply).call.Some? <==> Fires(|m.fullHistory| + 1, m.compressionWindow, m.recentWindow)
    ensures Steady(Step(m, msg, reply).manager)
    ensures |Step(m, msg, reply).manager.fullHistory| == |m.fullHistory| + 1
  {
    FireStep(m, msg, reply);
  }

  /** A steady manager holds exactly as many summaries as whole windows fit
      before its recent window. */
  lemma SteadyCount(m: Manager)
    requires Steady(m)
    ensures |m.summaries| == RecentStart(m) / m.compressionWindow
  {
    var w := m.compressionWindow;
    var k := |m.summaries|;
    DivModUnique(RecentStart(m), w, k, RecentStart(m) - k * w);
  }

  /** From a steady manager with a summariser that always succeeds, the
      manager stays steady for the whole run. */
  lemma {:induction false} DriveKeepsSteady(m: Manager, msgs: seq<Message>, replies: seq<Reply>)
    requires Steady(m)
    requires |replies| == |msgs| && AllOk(replies)
    ensures Steady(Drive(m, msgs, replies).manager)
    decreases |msgs|
  {
    if msgs != [] {
      StepKeepsSteady(m, msgs[0], replies[0]);
      assert AllOk(replies[1..]);
      DriveKeepsSteady(Step(m, msgs[0], replies[0]).manager, msgs[1..], replies[1..]);
    }
  }

  /** From a steady manager with a summariser that always succeeds, the
      attempt after message i calls the summariser exactly when that message
      completes a window outside the recent window. */
  lemma {:induction false} FiringAt(m: Manager, msgs: seq<Message>, replies: seq<Reply>, i: nat)
    requires Steady(m)
    requires |replies| == |msgs| && AllOk(replies)
    requires i < |msgs|
    ensures Drive(m, msgs, replies).calls[i].Some?
        <==> Fires(|m.fullHistory| + i + 1, m.compressionWindow, m.recentWindow)
    decreases i
  {
    var step := Step(m, msgs[0], replies[0]);
    var rest := Drive(step.manager, msgs[1..], replies[1..]);
    assert Drive(m, msgs, replies).calls == [step.call] + rest.calls;
    if i == 0 {
      StepFires(m, msgs[0], replies[0]);
    } else {
      StepKeepsSteady(m, msgs[0], replies[0]);
      assert AllOk(replies[1..]);
      assert rest.calls[i - 1] == Drive(m, msgs, replies).calls[i];
      FiringAt(step.manager, msgs[1..], replies[1..], i - 1);
      assert |step.manager.fullHistory| + (i - 1) + 1 == |m.fullHistory| + i + 1;
    }
  }

  /** The demonstration loop from a steady manager with a summariser that always
      succeeds: the attempt after a message calls the summariser exactly when
      that message completes a window outside the recent window, and the
      manager ends steady. */
  lemma DriveFiring(m: Manager, msgs: seq<Message>, replies: seq<Reply>)
    requires Steady(m)
    requires |replies| == |msgs| && AllOk(replies)
    ensures Steady(Drive(m, msgs, replies).manager)
    ensures forall i :: 0 <= i < |msgs| ==>
      (Drive(m, msgs, replies).calls[i].Some? <==> Fires(|m.fullHistory| + i + 1, m.compressionWindow, m.recentWindow))
  {
    DriveKeepsSteady(m, msgs, replies);
    forall i | 0 <= i < |msgs|
      ensures Drive(m, msgs, replies).calls[i].Some?
          <==> Fires(|m.fullHistory| + i + 1, m.compressionWindow, m.recentWindow)
    {
      FiringAt(m, msgs, replies, i);
    }
  }

  /** The number, counting from one, of the window that is complete once the
      history holds `n` messages outside the recent window. */
  function WindowNumber(n: int, compressionWindow: int, recentWindow: int): int
    requires compressionWindow > 0
  {
    (n - recentWindow) / compressionWindow
  }

  /** The call a single step makes from a steady manager summarises window
      number `WindowNumber(n)`. */
  lemma StepRange(m: Manager, msg: Message, reply: Reply)
    requires Steady(m)
    requires reply.Success? && |reply.choices| > 0
    requires Step(m, msg, reply).call.Some?
    ensures var number := WindowNumber(|m.fullHistory| + 1, m.compressionWindow, m.recentWindow);
      && Step(m, msg, reply).call.value.start == (number - 1) * m.compressionWindow
      && Step(m, msg, reply).call.value.end == number * m.compressionWindow
  {
    FireStep(m, msg, reply);
    var w := m.compressionWindow;
    var k0 := |m.summaries|;
    var number := WindowNumber(|m.fullHistory| + 1, w, m.recentWindow);
    assert number - 1 == k0;
    assert number * w == k0 * w + w;
  }

  /** With a summariser that always succeeds, the call after message i, when
      the history holds `n` messages, summarises window number
      `WindowNumber(n)`: the messages [(number - 1) * w, number * w). */
  lemma {:induction false} CallRange(m: Manager, msgs: seq<Message>, replies: seq<Reply>, i: nat)
    requires Steady(m)
    requires |replies| == |msgs| && AllOk(replies)
    requires i < |msgs| && Drive(m, msgs, replies).calls[i].Some?
    ensures var number := WindowNumber(|m.fullHistory| + i + 1, m.compressionWindow, m.recentWindow);
      && Drive(m, msgs, replies).calls[i].value.start == (number - 1) * m.compressionWindow
      && Drive(m, msgs, replies).calls[i].value.end == number * m.compressionWindow
    decreases i
  {
    var step := Step(m, msgs[0], replies[0]);
    var rest := Drive(step.manager, msgs[1..], replies[1..]);
    assert Drive(m, msgs, replies).calls == [step.call] + rest.calls;
    if i == 0 {
      StepRange(m, msgs[0], replies[0]);
    } else {
      StepKeepsSteady(m, msgs[0], replies[0]);
      assert AllOk(replies[1..]);
      assert rest.calls[i - 1] == Drive(m, msgs, replies).calls[i];
      CallRange(step.manager, msgs[1..], replies[1..], i - 1);
      assert |step.manager.fullHistory| + (i - 1) + 1 == |m.fullHistory| + i + 1;
    }
  }

  /** The summary a single step from a steady manager stores is number
      `WindowNumber(n)`, and the later steps keep it there. */
  lemma StepSummary(m: Manager, msgs: seq<Message>, replies: seq<Reply>)
    requires Steady(m)
    requires |replies| == |msgs| && AllOk(replies)
    requires msgs != [] && Drive(m, msgs, replies).calls[0].Some?
    ensures var r := Drive(m, msgs, replies);
      var number := WindowNumber(|m.fullHistory| + 1, m.compressionWindow, m.recentWindow);
      0 < number <= |r.manager.summaries| && r.manager.summaries[number - 1] == replies[0].choices[0]
  {
    var k0 := |m.summaries|;
    FireStep(m, msgs[0], replies[0]);
    var step := Step(m, msgs[0], replies[0]);
    var rest := Drive(step.manager, msgs[1..], replies[1..]);
    assert Drive(m, msgs, replies) == Run(rest.manager, [step.call] + rest.calls);
    assert rest.manager.summaries[..k0 + 1] == step.manager.summaries;
  }

  /** With a summariser that always succeeds, the summary made after message i,
      when the history holds `n` messages, is stored as number `WindowNumber(n)`
      and is the first choice of that step's reply. */
  lemma {:induction false} CallSummary(m: Manager, msgs: seq<Message>, replies: seq<Reply>, i: nat)
    requires Steady(m)
    requires |replies| == |msgs| && AllOk(replies)
    requires i < |msgs| && Drive(m, msgs, replies).calls[i].Some?
    ensures var r := Drive(m, msgs, replies);
      var number := WindowNumber(|m.fullHistory| + i + 1, m.compressionWindow, m.recentWindow);
      0 < number <= |r.manager.summaries| && r.manager.summaries[number - 1] == replies[i].choices[0]
    decreases i
  {
    if i == 0 {
      StepSummary(m, msgs, replies);
    } else {
      StepKeepsSteady(m, msgs[0], replies[0]);
      var step := Step(m, msgs[0], replies[0]);
      var rest := Drive(step.manager, msgs[1..], replies[1..]);
      assert Drive(m, msgs, replies) == Run(rest.manager, [step.call] + rest.calls);
      assert AllOk(replies[1..]);
      assert rest.calls[i - 1] == Drive(m, msgs, replies).calls[i];
      CallSummary(step.manager, msgs[1..], replies[1..], i - 1);
      assert replies[1..][i - 1] == replies[i];
      assert WindowNumber(|step.manager.fullHistory| + (i - 1) + 1, step.manager.compressionWindow, step.manager.recentWindow)
          == WindowNumber(|m.fullHistory| + i + 1, m.compressionWindow, m.recentWindow);
    }
  }

  /** Appending leaves every slice of the original in place. */
  lemma SliceOfExtension(a: seq<Message>, b: seq<Message>, start: int, end: int)
    requires 0 <= start <= end <= |a|
    ensures (a + b)[start..end] == a[start..end]
  {
  }

  /** A summariser call renders the block of `h` it names. */
  predicate RendersBlock(call: SummaryCall, h: seq<Message>) {
    0 <= call.start <= call.end <= |h| && call.prompt == DialogText(h[call.start..call.end])
  }

  /** Every call of a run renders a block that the final history still holds
      in the same place: the history only grows at its end. */
  lemma {:induction false} CallRendersHistory(m: Manager, msgs: seq<Message>, replies: seq<Reply>, i: nat)
    requires m.compressionWindow >= 0 && m.recentWindow >= 0
    requires |replies| == |msgs|
    requires i < |msgs| && Drive(m, msgs, replies).calls[i].Some?
    ensures RendersBlock(Drive(m, msgs, replies).calls[i].value, Drive(m, msgs, replies).manager.fullHistory)
    decreases i
  {
    var step := Step(m, msgs[0], replies[0]);
    var rest := Drive(step.manager, msgs[1..], replies[1..]);
    assert Drive(m, msgs, replies) == Run(rest.manager, [step.call] + rest.calls);
    if i == 0 {
      var call := step.call.value;
      SliceOfExtension(step.manager.fullHistory, msgs[1..], call.start, call.end);
    } else {
      assert rest.calls[i - 1] == Drive(m, msgs, replies).calls[i];
      CallRendersHistory(step.manager, msgs[1..], replies[1..], i - 1);
    }
  }

  /** The turns of the long machine-learning dialog. */
  const LongDialogTurns: seq<Turn> := [
    Turn("Привет! Хочу изучить машинное обучение. С чего начать?",
         "Отлично! Начните с основ Python и математики (линейная алгебра, статистика)."),
    Turn("Python я знаю. А какие библиотеки нужны для ML?",
         "Основные: NumPy, Pandas, Scikit-learn, Matplotlib. Для глубокого обучения - TensorFlow или PyTorch."),
    Turn("Понял. А есть хорошие курсы?",
         "Да! Coursera (Andrew Ng), Fast.ai, Google ML Crash Course - отличные варианты."),
    Turn("Спасибо! Сколько времени обычно занимает обучение?",
         "От 3-6 месяцев для базы до 1-2 лет для уверенного уровня. Зависит от интенсивности."),
    Turn("Хорошо. А какой первый проект сделать?",
         "Начните с классификации (например, MNIST - распознавание цифр) или регрессии (предсказание цен)."),
    Turn("MNIST звучит интересно. Какую модель использовать?",
         "Для начала логистическая регрессия, потом простая нейросеть (MLP), затем CNN."),
    Turn("А что такое CNN?",
         "Convolutional Neural Network - сверточная нейросеть. Отлично работает с изображениями."),
    Turn("Понятно. А как оценить качество модели?",
         "Используйте метрики: accuracy, precision, recall, F1-score. Важна также cross-validation."),
    Turn("Что делать с переобучением?",
         "Методы: больше данных, регуляризация (L1/L2), dropout, early stopping, data augmentation."),
    Turn("А где брать данные для проектов?",
         "Kaggle, UCI ML Repository, Google Dataset Search, OpenML. На Kaggle еще и соревнования есть."),
    Turn("Отлично! Еще вопрос: GPU обязателен?",
         "Для начала нет. Google Colab дает бесплатный GPU. Для серьезных проектов - желателен."),
    Turn("А какие зарплаты у ML-инженеров?",
         "В России: junior от 80-120k руб, middle 150-250k, senior 250k+. За границей значительно выше."),
    Turn("Хорошая мотивация! Спасибо за помощь!",
         "Пожалуйста! Удачи в изучении ML. Главное - практика и регулярность!")]

  /** `generateLongDialog`: 26 messages, user and assistant taking turns, the
      user first. */
  function GenerateLongDialog(): (ms: seq<Message>)
    ensures |ms| == 26
    ensures forall i :: 0 <= i < 26 ==> ms[i].role == (if i % 2 == 0 then User else Assistant)
  {
    Dialog(LongDialogTurns)
  }

  /** The turns of the dialog whose early and middle facts the quality
      comparison asks about. */
  const QualityDialogTurns: seq<Turn> := [
    Turn("Привет! Меня зовут Алексей, я работаю программистом в компании TechCorp.",
         "Приятно познакомиться, Алексей! Чем могу помочь?"),
    Turn("Мне нужно выбрать язык программирования для нового проекта. Это будет веб-приложение для управления задачами.",
         "Отличный проект! Для веб-приложений есть много вариантов. Какой у вас опыт разработки?"),
    Turn("Я знаю Python и JavaScript. Команда состоит из 5 человек, все знают JavaScript.",
         "Понятно. Учитывая знания команды, JavaScript (Node.js + React) будет хорошим выбором."),
    Turn("А что насчет производительности? Приложение должно обрабатывать до 10000 пользователей.",
         "Node.js справится с такой нагрузкой. Можно также рассмотреть Next.js для SSR."),
    Turn("Отлично! Еще вопрос: какую базу данных выбрать - PostgreSQL или MongoDB?",
         "Для задач с четкой структурой (управление задачами) PostgreSQL будет лучше."),
    Turn("Согласен. А для хостинга что посоветуешь? Бюджет ограничен - до $100/месяц.",
         "В таком случае Vercel (фронтенд) + Railway или Render (бэкенд) - отличные варианты в рамках бюджета."),
    Turn("Спасибо! Давай подытожим: мы выбрали JavaScript (Next.js), PostgreSQL, хостинг Vercel+Railway.",
         "Верно! Это сбалансированный стек для вашего проекта управления задачами.")]

  /** The 14 messages of the quality comparison, user and assistant taking
      turns, the user first. */
  function QualityDialog(): (ms: seq<Message>)
    ensures |ms| == 14
    ensures forall i :: 0 <= i < 14 ==> ms[i].role == (if i % 2 == 0 then User else Assistant)
  {
    Dialog(QualityDialogTurns)
  }

  /** With windows of 10 and 6, of the first 26 history lengths only 16 and 26
      complete a window. */
  lemma TenSixFires(n: int)
    requires 0 < n <= 26
    ensures Fires(n, 10, 6) <==> n == 16 || n == 26
  {
    if n > 6 {
      var q := (n - 6) / 10;
      assert n - 6 == q * 10 + (n - 6) % 10;
      assert 0 <= q <= 2;
    }
  }

  /** With windows of 6 and 4, of the first 14 history lengths only 10
      completes a window. */
  lemma SixFourFires(n: int)
    requires 0 < n <= 14
    ensures Fires(n, 6, 4) <==> n == 10
  {
    if n > 4 {
      var q := (n - 4) / 6;
      assert n - 4 == q * 6 + (n - 4) % 6;
      assert 0 <= q <= 1;
    }
  }

  /** Windows of 10 with the newest 6 kept raw, any 26 messages and a
      summariser that always answers: compression fires only after messages 16
      and 26, and the run ends with two summaries. */
  lemma TenSixFiring(dialog: seq<Message>, replies: seq<Reply>)
    requires |dialog| == 26 && |replies| == 26 && AllOk(replies)
    ensures var r := Drive(NewContextManager(10, 6), dialog, replies);
      && (forall i :: 0 <= i < 26 ==> (r.calls[i].Some? <==> i == 15 || i == 25))
      && |r.manager.summaries| == 2
  {
    var m := NewContextManager(10, 6);
    var r := Drive(m, dialog, replies);
    DriveFiring(m, dialog, replies);
    SteadyCount(r.manager);
    forall i | 0 <= i < 26
      ensures r.calls[i].Some? <==> i == 15 || i == 25
    {
      TenSixFires(i + 1);
    }
  }

  /** In that run the call after message 16 summarises [0,10). */
  lemma TenSixFirstCall(dialog: seq<Message>, replies: seq<Reply>)
    requires |dialog| == 26 && |replies| == 26 && AllOk(replies)
    ensures Drive(NewContextManager(10, 6), dialog, replies).calls[15]
         == Some(SummaryCall(0, 10, DialogText(dialog[..10])))
  {
    var m := NewContextManager(10, 6);
    TenSixFiring(dialog, replies);
    assert WindowNumber(|m.fullHistory| + 15 + 1, 10, 6) == 1;
    CallRange(m, dialog, replies, 15);
    CallRendersHistory(m, dialog, replies, 15);
    assert Drive(m, dialog, replies).manager.fullHistory == dialog;
    assert Drive(m, dialog, replies).calls[15].value.end <= |dialog|;
    assert dialog[0..10] == dialog[..10];
  }

  /** In that run the call after message 26 summarises [10,20). */
  lemma TenSixSecondCall(dialog: seq<Message>, replies: seq<Reply>)
    requires |dialog| == 26 && |replies| == 26 && AllOk(replies)
    ensures Drive(NewContextManager(10, 6), dialog, replies).calls[25]
         == Some(SummaryCall(10, 20, DialogText(dialog[10..20])))
  {
    var m := NewContextManager(10, 6);
    TenSixFiring(dialog, replies);
    assert WindowNumber(|m.fullHistory| + 25 + 1, 10, 6) == 2;
    CallRange(m, dialog, replies, 25);
    CallRendersHistory(m, dialog, replies, 25);
    assert Drive(m, dialog, replies).manager.fullHistory == dialog;
    assert Drive(m, dialog, replies).calls[25].value.end <= |dialog|;
  }

  /** In that run the summaries are the answers to those two calls, in order. */
  lemma TenSixSummaries(dialog: seq<Message>, replies: seq<Reply>)
    requires |dialog| == 26 && |replies| == 26 && AllOk(replies)
    ensures Drive(NewContextManager(10, 6), dialog, replies).manager.summaries
         == [replies[15].choices[0], replies[25].choices[0]]
  {
    var m := NewContextManager(10, 6);
    TenSixFiring(dialog, replies);
    assert WindowNumber(|m.fullHistory| + 15 + 1, 10, 6) == 1;
    assert WindowNumber(|m.fullHistory| + 25 + 1, 10, 6) == 2;
    CallSummary(m, dialog, replies, 15);
    CallSummary(m, dialog, replies, 25);
  }

  /** Windows of 10 with the newest 6 kept raw, any 26 messages and a
      summariser that always answers: compression fires only after messages 16
      and 26; the two summaries cover [0,10) and [10,20), in that order; and the
      request view is the summary message followed by messages 20 to 25. */
  lemma TenSixScenario(dialog: seq<Message>, replies: seq<Reply>)
    requires |dialog| == 26 && |replies| == 26 && AllOk(replies)
    ensures var r := Drive(NewContextManager(10, 6), dialog, replies);
      && r.manager.fullHistory == dialog
      && (forall i :: 0 <= i < 26 ==> (r.calls[i].Some? <==> i == 15 || i == 25))
      && r.calls[15] == Some(SummaryCall(0, 10, DialogText(dialog[..10])))
      && r.calls[25] == Some(SummaryCall(10, 20, DialogText(dialog[10..20])))
      && r.manager.summaries == [replies[15].choices[0], replies[25].choices[0]]
      && GetContextForRequest(r.manager) == [SummaryMessage(r.manager.summaries)] + dialog[20..]
  {
    TenSixFiring(dialog, replies);
    TenSixFirstCall(dialog, replies);
    TenSixSecondCall(dialog, replies);
    TenSixSummaries(dialog, replies);
  }

  /** Windows of 6 with the newest 4 kept raw, any 14 messages and a summariser
      that always answers: compression fires only after message 10, and the
      run ends with one summary. */
  lemma SixFourFiring(dialog: seq<Message>, replies: seq<Reply>)
    requires |dialog| == 14 && |replies| == 14 && AllOk(replies)
    ensures var r := Drive(NewContextManager(6, 4), dialog, replies);
      && (forall i :: 0 <= i < 14 ==> (r.calls[i].Some? <==> i == 9))
      && |r.manager.summaries| == 1
  {
    var m := NewContextManager(6, 4);
    var r := Drive(m, dialog, replies);
    DriveFiring(m, dialog, replies);
    SteadyCount(r.manager);
    forall i | 0 <= i < 14
      ensures r.calls[i].Some? <==> i == 9
    {
      SixFourFires(i + 1);
    }
  }

  /** In that run the one call summarises [0,6). */
  lemma SixFourCall(dialog: seq<Message>, replies: seq<Reply>)
    requires |dialog| == 14 && |replies| == 14 && AllOk(replies)
    ensures Drive(NewContextManager(6, 4), dialog, replies).calls[9]
         == Some(SummaryCall(0, 6, DialogText(dialog[..6])))
  {
    var m := NewContextManager(6, 4);
    SixFourFiring(dialog, replies);
    assert WindowNumber(|m.fullHistory| + 9 + 1, 6, 4) == 1;
    CallRange(m, dialog, replies, 9);
    CallRendersHistory(m, dialog, replies, 9);
    assert Drive(m, dialog, replies).manager.fullHistory == dialog;
    assert Drive(m, dialog, replies).calls[9].value.end <= |dialog|;
    assert dialog[0..6] == dialog[..6];
  }

  /** In that run the one summary is the answer to that call. */
  lemma SixFourSummaries(dialog: seq<Message>, replies: seq<Reply>)
    requires |dialog| == 14 && |replies| == 14 && AllOk(replies)
    ensures Drive(NewContextManager(6, 4), dialog, replies).manager.summaries == [replies[9].choices[0]]
  {
    var m := NewContextManager(6, 4);
    SixFourFiring(dialog, replies);
    assert WindowNumber(|m.fullHistory| + 9 + 1, 6, 4) == 1;
    CallSummary(m, dialog, replies, 9);
  }

  /** Windows of 6 with the newest 4 kept raw, any 14 messages and a summariser
      that always answers: exactly one summary is made, after the 10th message,
      covering [0,6). The request view holds the summary and messages 10 to 13,
      so messages 6 to 9 are neither summarised nor sent. */
  lemma SixFourScenario(dialog: seq<Message>, replies: seq<Reply>)
    requires |dialog| == 14 && |replies| == 14 && AllOk(replies)
    ensures var r := Drive(NewContextManager(6, 4), dialog, replies);
      && r.manager.fullHistory == dialog
      && (forall i :: 0 <= i < 14 ==> (r.calls[i].Some? <==> i == 9))
      && r.calls[9] == Some(SummaryCall(0, 6, DialogText(dialog[..6])))
      && r.manager.summaries == [replies[9].choices[0]]
      && GetContextForRequest(r.manager) == [SummaryMessage(r.manager.summaries)] + dialog[10..]
      && CompressedCount(r.manager) == 6 && RecentStart(r.manager) == 10
  {
    SixFourFiring(dialog, replies);
    SixFourCall(dialog, replies);
    SixFourSummaries(dialog, replies);
  }

  /** The run with compression on the long dialog: two summaries, made after
      messages 16 and 26, and a request view of 7 messages. */
  lemma LongDialogScenario(replies: seq<Reply>)
    requires |replies| == 26 && AllOk(replies)
    ensures var r := Drive(NewContextManager(10, 6), GenerateLongDialog(), replies);
      && (forall i :: 0 <= i < 26 ==> (r.calls[i].Some? <==> i == 15 || i == 25))
      && r.manager.summaries == [replies[15].choices[0], replies[25].choices[0]]
      && |GetContextForRequest(r.manager)| == 7
      && GetContextForRequest(r.manager)[1..] == GenerateLongDialog()[20..]
  {
    TenSixScenario(GenerateLongDialog(), replies);
  }

  /** The quality comparison on its dialog: one summary, of the first six
      messages, made after the 10th, and a request view of 5 messages. */
  lemma QualityScenario(replies: seq<Reply>)
    requires |replies| == 14 && AllOk(replies)
    ensures var r := Drive(NewContextManager(6, 4), QualityDialog(), replies);
      && (forall i :: 0 <= i < 14 ==> (r.calls[i].Some? <==> i == 9))
      && r.calls[9] == Some(SummaryCall(0, 6, DialogText(QualityDialog()[..6])))
      && r.manager.summaries == [replies[9].choices[0]]
      && |GetContextForRequest(r.manager)| == 5
      && GetContextForRequest(r.manager)[1..] == QualityDialog()[10..]
  {
    SixFourScenario(QualityDialog(), replies);
  }
}

=== FILE: context_manager.dfy ===
/** The windowed context-compression manager (`ContextManager`).

    The manager keeps an append-only history and a list of summary texts.
    Summary i stands for the history block [i*w, i*w+w) where w is the
    compression window; the newest `recentWindow` messages are never
    summarised. The summariser is the completion gateway: each compression
    step receives the gateway's `Reply` as a parameter and reports the request
    it would have sent, so a step that sends nothing is visible.
 */
module ContextWindow {
  import opened Text
  import opened Chat

  datatype Manager = Manager(
    fullHistory: seq<Message>,
    summaries: seq<Bytes>,
    compressionWindow: int,
    recentWindow: int)

  function Max0(x: int): nat { if x < 0 then 0 else x }

  function Min(a: int, b: int): int { if a <= b then a else b }

  /** The number of history messages the stored summaries stand for. */
  function CompressedCount(m: Manager): int {
    |m.summaries| * m.compressionWindow
  }

  /** The invariant every operation keeps, for sensible window sizes: the
      summaries never reach into the recent window. */
  ghost predicate Inv(m: Manager) {
    && m.compressionWindow > 0
    && m.recentWindow >= 0
    && CompressedCount(m) <= Max0(|m.fullHistory| - m.recentWindow)
  }

  /** A new manager with empty history and no summaries. */
  function NewContextManager(compressionWindow: int, recentWindow: int): (m: Manager)
    ensures m.fullHistory == [] && m.summaries == []
    ensures m.compressionWindow == compressionWindow && m.recentWindow == recentWindow
    ensures compressionWindow > 0 && recentWindow >= 0 <==> Inv(m)
  {
    Manager([], [], compressionWindow, recentWindow)
  }

  /** Appends one message; nothing else changes and no compression happens. */
  function AddMessage(m: Manager, role: Bytes, content: Bytes): (r: Manager)
    ensures |r.fullHistory| == |m.fullHistory| + 1
    ensures r.fullHistory[..|m.fullHistory|] == m.fullHistory
    ensures r.fullHistory[|m.fullHistory|] == Message(role, content)
    ensures r.summaries == m.summaries
    ensures r.compressionWindow == m.compressionWindow && r.recentWindow == m.recentWindow
    ensures Inv(m) ==> Inv(r)
  {
    m.(fullHistory := m.fullHistory + [Message(role, content)])
  }

  /** The source's trigger: at least one window's worth of messages lies
      between the summarised prefix and the recent window. */
  predicate ShouldCompress(m: Manager) {
    |m.fullHistory| - m.recentWindow - CompressedCount(m) >= m.compressionWindow
  }

  /** First index of the block the next compression summarises. */
  function BlockStart(m: Manager): int {
    CompressedCount(m)
  }

  /** End of that block: one window further, clamped to the recent window. */
  function BlockEnd(m: Manager): int {
    var e := BlockStart(m) + m.compressionWindow;
    if e > |m.fullHistory| - m.recentWindow then |m.fullHistory| - m.recentWindow else e
  }

  /** The block slice is taken only when the trigger fires; Go panics unless its
      bounds lie inside the history. */
  predicate SliceInBounds(m: Manager) {
    ShouldCompress(m) ==> 0 <= BlockStart(m) <= BlockEnd(m) <= |m.fullHistory|
  }

  /** Non-negative windows never make the slice panic. */
  lemma WindowsKeepSliceInBounds(m: Manager)
    requires m.compressionWindow >= 0 && m.recentWindow >= 0
    ensures SliceInBounds(m)
  {
    if ShouldCompress(m) {
      assert |m.summaries| * m.compressionWindow >= 0;
    }
  }

  /** One `"role: content\n"` line of the text handed to the summariser. */
  function DialogLine(msg: Message): Bytes {
    msg.role + Separator + msg.content + Newline
  }

  /** The rendering of a block for the summariser: its lines, in order. The
      fixed instruction text that wraps it is not modelled. */
  function DialogText(block: seq<Message>): Bytes {
    if block == [] then [] else DialogText(block[..|block| - 1]) + DialogLine(block[|block| - 1])
  }

  /** Rendering a block with one more message appends that message's line. */
  lemma DialogTextSnoc(block: seq<Message>, msg: Message)
    ensures DialogText(block + [msg]) == DialogText(block) + DialogLine(msg)
  {
    assert (block + [msg])[..|block|] == block;
  }

  /** Rendering two adjacent blocks gives the two renderings one after the other. */
  lemma {:induction false} DialogTextSplit(a: seq<Message>, b: seq<Message>)
    ensures DialogText(a + b) == DialogText(a) + DialogText(b)
    decreases |b|
  {
    if b == [] {
      assert a + b == a;
    } else {
      var init := b[..|b| - 1];
      var last := b[|b| - 1];
      assert b == init + [last];
      assert a + b == (a + init) + [last];
      DialogTextSplit(a, init);
      DialogTextSnoc(a + init, last);
      DialogTextSnoc(init, last);
      assert DialogText(a) + DialogText(init) + DialogLine(last)
          == DialogText(a) + (DialogText(init) + DialogLine(last));
    }
  }

  /** Every message contributes its role, its content and three separator bytes. */
  lemma {:induction false} DialogTextLength(block: seq<Message>)
    ensures |DialogText(block)| >= 3 * |block|
    ensures |DialogText(block)| == 3 * |block| + RenderedBytes(block)
  {
    if block != [] {
      DialogTextLength(block[..|block| - 1]);
      RenderedBytesLast(block);
    }
  }

  /** Total bytes of roles and contents in a block. */
  function RenderedBytes(block: seq<Message>): nat {
    if block == [] then 0 else |block[0].role| + |block[0].content| + RenderedBytes(block[1..])
  }

  lemma {:induction false} RenderedBytesLast(block: seq<Message>)
    requires block != []
    ensures RenderedBytes(block)
         == RenderedBytes(block[..|block| - 1]) + |block[|block| - 1].role| + |block[|block| - 1].content|
  {
    if |block| > 1 {
      assert block[1..][..|block[1..]| - 1] == block[..|block| - 1][1..];
      RenderedBytesLast(block[1..]);
    }
  }

  datatype SummaryError = GatewayError(cause: Bytes) | EmptyCompletion

  datatype SummaryResult = Summarised(text: Bytes) | SummaryFailed(error: SummaryError)

  /** How the summariser turns the gateway's reply into a summary: the first
      choice verbatim, or an error when the call failed or brought no choice. */
  function CreateSummary(reply: Reply): (r: SummaryResult)
    ensures r.Summarised? <==> reply.Success? && |reply.choices| > 0
    ensures r.Summarised? ==> r.text == reply.choices[0]
    ensures reply.Failure? ==> r == SummaryFailed(GatewayError(reply.cause))
    ensures reply.Success? && |reply.choices| == 0 ==> r == SummaryFailed(EmptyCompletion)
  {
    match reply
    case Failure(cause) => SummaryFailed(GatewayError(cause))
    case Success(choices, _, _) =>
      if |choices| == 0 then SummaryFailed(EmptyCompletion) else Summarised(choices[0])
  }

  /** The summariser call a compression step makes: the block bounds and the
      rendered dialog sent to the gateway. */
  datatype SummaryCall = SummaryCall(start: int, end: int, prompt: Bytes)

  datatype Status = NotNeeded | Compressed | Failed(error: SummaryError)

  datatype CompressStep = CompressStep(manager: Manager, call: Option<SummaryCall>, status: Status)

  /** `CompressIfNeeded`: when the trigger fires, summarise the oldest
      unsummarised block and append the summary; a failed summary is reported
      and leaves the manager as it was, so the next call retries the same block. */
  function CompressIfNeeded(m: Manager, reply: Reply): (r: CompressStep)
    requires SliceInBounds(m)
    // no trigger: no gateway call and no change
    ensures r.call.None? <==> !ShouldCompress(m)
    ensures !ShouldCompress(m) ==> r.manager == m && r.status == NotNeeded
    // the history and the window sizes are never touched
    ensures r.manager.fullHistory == m.fullHistory
    ensures r.manager.compressionWindow == m.compressionWindow
    ensures r.manager.recentWindow == m.recentWindow
    // the call summarises the rendered block it names
    ensures r.call.Some? ==>
      && 0 <= r.call.value.start <= r.call.value.end <= |m.fullHistory|
      && r.call.value.prompt == DialogText(m.fullHistory[r.call.value.start..r.call.value.end])
    // that block is exactly the next window after the summarised prefix, before the recent window
    ensures r.call.Some? ==>
      && r.call.value.start == CompressedCount(m)
      && r.call.value.end == CompressedCount(m) + m.compressionWindow
      && r.call.value.end <= |m.fullHistory| - m.recentWindow
    // success appends exactly the first choice; failure changes nothing
    ensures r.status.Compressed? <==> ShouldCompress(m) && reply.Success? && |reply.choices| > 0
    ensures r.status.Compressed? ==> r.manager.summaries == m.summaries + [reply.choices[0]]
    ensures !r.status.Compressed? ==> r.manager == m
    ensures r.status.Failed? ==> ShouldCompress(m) && r.status.error == CreateSummary(reply).error
    // a triggered compression whose summary fails always reports that failure
    ensures r.status.NotNeeded? <==> !ShouldCompress(m)
    ensures ShouldCompress(m) && CreateSummary(reply).SummaryFailed? ==>
      r.status == Failed(CreateSummary(reply).error)
    ensures Inv(m) ==> Inv(r.manager)
  {
    if !ShouldCompress(m) then
      CompressStep(m, None, NotNeeded)
    else
      var start := BlockStart(m);
      var end := BlockEnd(m);
      var call := SummaryCall(start, end, DialogText(m.fullHistory[start..end]));
      match CreateSummary(reply)
      case SummaryFailed(e) => CompressStep(m, Some(call), Failed(e))
      case Summarised(text) =>
        var next := m.(summaries := m.summaries + [text]);
        assert CompressedCount(next) == CompressedCount(m) + m.compressionWindow by {
          assert |next.summaries| == |m.summaries| + 1;
        }
        CompressStep(next, Some(call), Compressed)
  }

  /** The summary preamble's first line. */
  const SummaryHeader: Bytes := Utf8("Краткое содержание предыдущего диалога:\n")

  /** `"[Блок "`, the start of each summary line. */
  const BlockLabel: Bytes := Utf8("[Блок ")

  /** The line for summary number `n` (counting from one). */
  function BlockLine(n: nat, summary: Bytes): Bytes {
    BlockLabel + Decimal(n) + [']' as byte] + Separator + summary + Newline
  }

  /** All summary lines, numbered by position, as the loop of the source builds them. */
  function Listing(summaries: seq<Bytes>): Bytes {
    if summaries == [] then []
    else Listing(summaries[..|summaries| - 1]) + BlockLine(|summaries|, summaries[|summaries| - 1])
  }

  /** Line i of the listing is `BlockLine(i + 1, summaries[i])`, in order. */
  function ListingLines(summaries: seq<Bytes>): (lines: seq<Bytes>)
    ensures |lines| == |summaries|
    ensures forall i :: 0 <= i < |summaries| ==> lines[i] == BlockLine(i + 1, summaries[i])
  {
    seq(|summaries|, i requires 0 <= i < |summaries| => BlockLine(i + 1, summaries[i]))
  }

  /** The listing is exactly the numbered lines, one per summary, in order. */
  lemma {:induction false} ListingIsLines(summaries: seq<Bytes>)
    ensures Listing(summaries) == Concat(ListingLines(summaries))
  {
    if summaries != [] {
      var init := summaries[..|summaries| - 1];
      ListingIsLines(init);
      assert ListingLines(summaries) == ListingLines(init) + [BlockLine(|summaries|, summaries[|summaries| - 1])];
      ConcatAppend(ListingLines(init), BlockLine(|summaries|, summaries[|summaries| - 1]));
    }
  }

  /** The synthetic system message standing for all summaries. */
  function SummaryMessage(summaries: seq<Bytes>): Message {
    Message(System, SummaryHeader + Listing(summaries))
  }

  /** Index of the first raw message the request view carries. */
  function RecentStart(m: Manager): nat {
    Max0(|m.fullHistory| - m.recentWindow)
  }

  /** `GetContextForRequest`: the summaries as one system message (only when
      there are any) followed by the newest `recentWindow` history messages.
      Go panics on the tail slice when the recent window is negative. */
  function GetContextForRequest(m: Manager): (view: seq<Message>)
    requires m.recentWindow >= 0
    ensures |view| == (if |m.summaries| > 0 then 1 else 0) + Min(m.recentWindow, |m.fullHistory|)
    ensures |m.summaries| > 0 ==> view[0].role == System && view[0] == SummaryMessage(m.summaries)
    ensures var skip := if |m.summaries| > 0 then 1 else 0;
      view[skip..] == m.fullHistory[|m.fullHistory| - Min(m.recentWindow, |m.fullHistory|)..]
  {
    var head := if |m.summaries| > 0 then [SummaryMessage(m.summaries)] else [];
    head + m.fullHistory[RecentStart(m)..]
  }

  /** A successful compression extends the summary message by one numbered line. */
  lemma CompressExtendsSummaryMessage(m: Manager, reply: Reply)
    requires SliceInBounds(m) && m.recentWindow >= 0
    requires CompressIfNeeded(m, reply).status.Compressed?
    ensures var after := CompressIfNeeded(m, reply).manager;
      && |GetContextForRequest(after)| == |GetContextForRequest(m)| + (if |m.summaries| == 0 then 1 else 0)
      && GetContextForRequest(after)[0].content
         == SummaryHeader + Listing(m.summaries) + BlockLine(|m.summaries| + 1, reply.choices[0])
  {
    var after := CompressIfNeeded(m, reply).manager;
    var line := BlockLine(|m.summaries| + 1, reply.choices[0]);
    assert after.summaries[..|after.summaries| - 1] == m.summaries;
    assert Listing(after.summaries) == Listing(m.summaries) + line;
    assert GetContextForRequest(after)[0] == SummaryMessage(after.summaries);
    assert SummaryHeader + (Listing(m.summaries) + line) == SummaryHeader + Listing(m.summaries) + line;
  }

  /** The integer fields of `ContextStats`. The floating-point ratio and
      percentage are not modelled. */
  datatype ContextStats = ContextStats(
    totalMessages: int,
    compressedBlocks: int,
    recentMessages: int,
    originalTokens: int,
    compressedTokens: int,
    tokensSaved: int)

  /** The messages `GetStats` counts as the recent tail: the loop starts at
      `len - recentMessages` and runs to the end, so a negative recent window
      gives no iterations. */
  function StatsTail(m: Manager): seq<Message> {
    var recent := if |m.fullHistory| - m.recentWindow < 0 then |m.fullHistory| else m.recentWindow;
    if recent < 0 then [] else m.fullHistory[|m.fullHistory| - recent..]
  }

  /** `GetStats`: counts and token estimates of the history and of its
      compressed form. */
  function GetStats(m: Manager): (s: ContextStats)
    ensures s.totalMessages == |m.fullHistory|
    ensures s.compressedBlocks == |m.summaries|
    ensures m.recentWindow >= 0 ==> s.recentMessages == Min(m.recentWindow, |m.fullHistory|)
    ensures m.recentWindow < 0 ==> s.recentMessages == m.recentWindow
    ensures s.originalTokens == SumTokens(m.fullHistory)
    ensures m.recentWindow >= 0 ==>
      s.compressedTokens == SumTextTokens(m.summaries) + SumTokens(m.fullHistory[RecentStart(m)..])
    // a negative window keeps no recent messages in the estimate
    ensures m.recentWindow < 0 ==> s.compressedTokens == SumTextTokens(m.summaries)
    ensures s.originalTokens > 0 ==> s.tokensSaved == s.originalTokens - s.compressedTokens
    ensures s.originalTokens == 0 ==> s.tokensSaved == 0
  {
    var recent := if |m.fullHistory| - m.recentWindow < 0 then |m.fullHistory| else m.recentWindow;
    var original := SumTokens(m.fullHistory);
    var compressed := SumTextTokens(m.summaries) + SumTokens(StatsTail(m));
    ContextStats(
      |m.fullHistory|,
      |m.summaries|,
      recent,
      original,
      compressed,
      if original > 0 then original - compressed else 0)
  }

  /** The compressed-token count is the estimate of exactly what the request
      view carries: the summaries plus the raw messages of the view. */
  lemma StatsMatchView(m: Manager)
    requires m.recentWindow >= 0
    ensures var view := GetContextForRequest(m);
      var skip := if |m.summaries| > 0 then 1 else 0;
      && GetStats(m).recentMessages == |view| - skip
      && GetStats(m).compressedTokens == SumTextTokens(m.summaries) + SumTokens(view[skip..])
  {
  }

  /** When there is anything to save, the saving is the estimate of the
      messages the view leaves out minus what the summaries cost. */
  lemma TokensSavedAreOmittedMessages(m: Manager)
    requires m.recentWindow >= 0
    requires SumTokens(m.fullHistory) > 0
    ensures GetStats(m).tokensSaved
         == SumTokens(m.fullHistory[..RecentStart(m)]) - SumTextTokens(m.summaries)
  {
    var h := m.fullHistory;
    assert h == h[..RecentStart(m)] + h[RecentStart(m)..];
    SumTokensSplit(h[..RecentStart(m)], h[RecentStart(m)..]);
  }

  /** Without any summary the saving is still the estimate of everything
      outside the recent window, not zero: the recent tail is all the
      compressed estimate counts. */
  lemma SavingWithoutSummaries(m: Manager)
    requires m.summaries == [] && m.recentWindow >= 0
    requires SumTokens(m.fullHistory) > 0
    ensures GetStats(m).compressedBlocks == 0
    ensures GetStats(m).tokensSaved == SumTokens(m.fullHistory[..RecentStart(m)])
  {
    TokensSavedAreOmittedMessages(m);
  }

  /** Two three-byte messages with a recent window of one report one token
      saved (a 50 per cent saving) although nothing was summarised. */
  lemma SavingWithoutSummariesExample()
    ensures var m := Manager([Message(User, [0, 0, 0]), Message(User, [0, 0, 0])], [], 10, 1);
      && GetStats(m).compressedBlocks == 0
      && GetStats(m).originalTokens == 2
      && GetStats(m).compressedTokens == 1
      && GetStats(m).tokensSaved == 1
  {
    var m := Manager([Message(User, [0, 0, 0]), Message(User, [0, 0, 0])], [], 10, 1);
    var h := m.fullHistory;
    assert h[1..][1..] == [];
    assert SumTokens(h[1..]) == 1;
    assert SumTokens(h) == 2;
    assert StatsTail(m) == h[1..];
  }

  /** `Reset`: history and summaries are emptied; the window sizes stay. */
  function Reset(m: Manager): (r: Manager)
    ensures r.fullHistory == [] && r.summaries == []
    ensures r.compressionWindow == m.compressionWindow && r.recentWindow == m.recentWindow
    ensures Inv(m) ==> Inv(r)
  {
    NewContextManager(m.compressionWindow, m.recentWindow)
  }
}

=== FILE: summary_ledger.dfy ===
/** The source ranges of the summaries.

    The manager stores each summary as a bare text. For the proofs a `Ledger`
    pairs the manager with what each successful compression actually
    summarised: the index range it sliced and the messages in it. The ledger
    exists only for reasoning; every function on it is ghost.
 */
module SummaryLedger {
  import opened Text
  import opened Chat
  import opened ContextWindow

  /** A half-open range of history indices. */
  datatype Span = Span(start: int, end: int)

  datatype Ledger = Ledger(manager: Manager, spans: seq<Span>, blocks: seq<seq<Message>>)

  /** The spans tile `[0, end)` in order, one window of `w` messages each. */
  ghost predicate Contiguous(spans: seq<Span>, w: int, end: int) {
    && (|spans| == 0 ==> end == 0)
    && (|spans| > 0 ==> spans[0].start == 0 && spans[|spans| - 1].end == end)
    && (forall i :: 0 <= i < |spans| - 1 ==> spans[i].end == spans[i + 1].start)
    && (forall i :: 0 <= i < |spans| ==> spans[i].end - spans[i].start == w)
  }

  /** No span reaches past `limit`. */
  ghost predicate Within(spans: seq<Span>, limit: int) {
    forall i :: 0 <= i < |spans| ==> spans[i].end <= limit
  }

  /** Each block is what the history holds in its span. */
  ghost predicate Records(spans: seq<Span>, blocks: seq<seq<Message>>, h: seq<Message>) {
    && |blocks| == |spans|
    && forall i :: 0 <= i < |spans| ==>
         0 <= spans[i].start <= spans[i].end <= |h| && blocks[i] == h[spans[i].start..spans[i].end]
  }

  /** What the ledger guarantees about the manager it follows: one span per
      summary; the spans tile the summarised prefix one window at a time; none
      reaches into the recent window; and what was summarised is still what
      the history holds there. */
  ghost predicate Tracks(l: Ledger) {
    var m := l.manager;
    && Inv(m)
    && |l.spans| == |m.summaries|
    && Contiguous(l.spans, m.compressionWindow, CompressedCount(m))
    && Within(l.spans, |m.fullHistory| - m.recentWindow)
    && Records(l.spans, l.blocks, m.fullHistory)
  }

  /** A ledger for a fresh manager. */
  ghost function Start(compressionWindow: int, recentWindow: int): (l: Ledger)
    requires compressionWindow > 0 && recentWindow >= 0
    ensures Tracks(l)
    ensures l.manager == NewContextManager(compressionWindow, recentWindow)
  {
    Ledger(NewContextManager(compressionWindow, recentWindow), [], [])
  }

  ghost function Add(l: Ledger, role: Bytes, content: Bytes): (r: Ledger)
    ensures r.manager == AddMessage(l.manager, role, content)
    ensures r.spans == l.spans && r.blocks == l.blocks
    ensures Tracks(l) ==> Tracks(r)
  {
    var r := Ledger(AddMessage(l.manager, role, content), l.spans, l.blocks);
    assert Tracks(l) ==> forall i :: 0 <= i < |l.spans| ==>
      l.blocks[i] == r.manager.fullHistory[l.spans[i].start..l.spans[i].end] by {
      if Tracks(l) {
        forall i | 0 <= i < |l.spans|
          ensures l.blocks[i] == r.manager.fullHistory[l.spans[i].start..l.spans[i].end]
        {
          assert r.manager.fullHistory[..|l.manager.fullHistory|] == l.manager.fullHistory;
        }
      }
    }
    r
  }

  /** One compression step, recording the slice it summarised when it succeeds. */
  ghost function Compress(l: Ledger, reply: Reply): (r: Ledger)
    requires Tracks(l)
    ensures Tracks(r)
    ensures r.manager == CompressIfNeeded(l.manager, reply).manager
    ensures CompressIfNeeded(l.manager, reply).status.Compressed? ==>
      && r.spans == l.spans + [Span(CompressedCount(l.manager), CompressedCount(l.manager) + l.manager.compressionWindow)]
      && r.blocks == l.blocks + [l.manager.fullHistory[CompressedCount(l.manager)..CompressedCount(l.manager) + l.manager.compressionWindow]]
    ensures !CompressIfNeeded(l.manager, reply).status.Compressed? ==> r == l
  {
    var step := CompressIfNeeded(l.manager, reply);
    if step.status.Compressed? then
      var call := step.call.value;
      var r := Ledger(step.manager, l.spans + [Span(call.start, call.end)],
                      l.blocks + [l.manager.fullHistory[call.start..call.end]]);
      CompressedStepTracks(l, reply, r);
      r
    else
      l
  }

  lemma CompressedStepTracks(l: Ledger, reply: Reply, r: Ledger)
    requires Tracks(l)
    requires CompressIfNeeded(l.manager, reply).status.Compressed?
    requires var call := CompressIfNeeded(l.manager, reply).call.value;
      r == Ledger(CompressIfNeeded(l.manager, reply).manager, l.spans + [Span(call.start, call.end)],
                  l.blocks + [l.manager.fullHistory[call.start..call.end]])
    ensures Tracks(r)
  {
    var m := l.manager;
    var step := CompressIfNeeded(m, reply);
    var call := step.call.value;
    AppendSpanTracks(l, step.manager, Span(call.start, call.end), r);
  }

  /** Appending the next window to a tracking ledger, for a manager with one
      more summary and the same history, keeps it tracking. */
  lemma AppendSpanTracks(l: Ledger, next: Manager, span: Span, r: Ledger)
    requires Tracks(l)
    requires Inv(next)
    requires next.fullHistory == l.manager.fullHistory
    requires next.compressionWindow == l.manager.compressionWindow
    requires next.recentWindow == l.manager.recentWindow
    requires |next.summaries| == |l.manager.summaries| + 1
    requires span == Span(CompressedCount(l.manager), CompressedCount(l.manager) + l.manager.compressionWindow)
    requires span.end <= |l.manager.fullHistory| - l.manager.recentWindow
    requires r == Ledger(next, l.spans + [span], l.blocks + [l.manager.fullHistory[span.start..span.end]])
    ensures Tracks(r)
  {
    var m := l.manager;
    var w := m.compressionWindow;
    CountStep(m, next);
    ContiguousAppend(l.spans, w, span.start);
    WithinAppend(l.spans, span, |m.fullHistory| - m.recentWindow);
    RecordsAppend(l.spans, l.blocks, m.fullHistory, span);
  }

  /** One more summary moves the summarised prefix on by one window. */
  lemma CountStep(m: Manager, next: Manager)
    requires m.compressionWindow > 0
    requires next.compressionWindow == m.compressionWindow
    requires |next.summaries| == |m.summaries| + 1
    ensures CompressedCount(m) >= 0
    ensures CompressedCount(next) == CompressedCount(m) + m.compressionWindow
  {
    var n := |m.summaries|;
    var w := m.compressionWindow;
    assert (n + 1) * w == n * w + w;
  }

  lemma ContiguousAppend(spans: seq<Span>, w: int, end: int)
    requires Contiguous(spans, w, end)
    ensures Contiguous(spans + [Span(end, end + w)], w, end + w)
  {
    var r := spans + [Span(end, end + w)];
    forall i | 0 <= i < |r| - 1 ensures r[i].end == r[i + 1].start {
      if i < |spans| - 1 {
        assert r[i] == spans[i] && r[i + 1] == spans[i + 1];
      }
    }
    forall i | 0 <= i < |r| ensures r[i].end - r[i].start == w {
      if i < |spans| {
        assert r[i] == spans[i];
      }
    }
  }

  lemma WithinAppend(spans: seq<Span>, span: Span, limit: int)
    requires Within(spans, limit)
    requires span.end <= limit
    ensures Within(spans + [span], limit)
  {
    var r := spans + [span];
    forall i | 0 <= i < |r| ensures r[i].end <= limit {
      if i < |spans| {
        assert r[i] == spans[i];
      }
    }
  }

  lemma RecordsAppend(spans: seq<Span>, blocks: seq<seq<Message>>, h: seq<Message>, span: Span)
    requires Records(spans, blocks, h)
    requires 0 <= span.start <= span.end <= |h|
    ensures Records(spans + [span], blocks + [h[span.start..span.end]], h)
  {
    var r := spans + [span];
    var b := blocks + [h[span.start..span.end]];
    forall i | 0 <= i < |r|
      ensures 0 <= r[i].start <= r[i].end <= |h| && b[i] == h[r[i].start..r[i].end]
    {
      if i < |spans| {
        assert r[i] == spans[i] && b[i] == blocks[i];
      }
    }
  }

  ghost function ResetLedger(l: Ledger): (r: Ledger)
    ensures r.manager == Reset(l.manager)
    ensures r.spans == [] && r.blocks == []
    ensures Tracks(l) ==> Tracks(r)
  {
    Ledger(Reset(l.manager), [], [])
  }

  /** Summary i covers exactly the history block [i*w, i*w+w). */
  lemma {:induction false} SpanPositions(l: Ledger, i: nat)
    requires Tracks(l)
    requires i < |l.spans|
    ensures l.spans[i] == Span(i * l.manager.compressionWindow, i * l.manager.compressionWindow + l.manager.compressionWindow)
  {
    if i > 0 {
      SpanPositions(l, i - 1);
      assert i * l.manager.compressionWindow == (i - 1) * l.manager.compressionWindow + l.manager.compressionWindow;
    }
  }

  /** Distinct summaries never cover a common message. */
  lemma {:induction false} SpansDisjoint(l: Ledger, i: nat, j: nat)
    requires Tracks(l)
    requires i < j < |l.spans|
    ensures l.spans[i].end <= l.spans[j].start
  {
    if j == i + 1 {
    } else {
      SpansDisjoint(l, i, j - 1);
    }
  }

  /** History index `k` lies in `span`. */
  ghost predicate InSpan(span: Span, k: int) {
    span.start <= k < span.end
  }

  /** Some summary stands for history index `k`. */
  ghost predicate Covered(spans: seq<Span>, k: int) {
    exists i :: 0 <= i < |spans| && InSpan(spans[i], k)
  }

  /** No message is both summarised and sent raw: the spans cover exactly
      the summarised prefix `[0, CompressedCount)`, and every history index a
      summary stands for lies before the raw tail of the request view. */
  lemma SummarisedNotSent(l: Ledger)
    requires Tracks(l)
    ensures forall k :: Covered(l.spans, k) <==> 0 <= k < CompressedCount(l.manager)
    ensures forall k :: Covered(l.spans, k) ==> k < RecentStart(l.manager)
    ensures var m := l.manager;
      var view := GetContextForRequest(m);
      var skip := if |m.summaries| > 0 then 1 else 0;
      forall k :: Covered(l.spans, k) ==> k < |m.fullHistory| - (|view| - skip)
  {
    forall k | Covered(l.spans, k)
      ensures 0 <= k < CompressedCount(l.manager)
    {
      var i :| 0 <= i < |l.spans| && InSpan(l.spans[i], k);
      SpanInPrefix(l, i, k);
    }
    forall k | 0 <= k < CompressedCount(l.manager)
      ensures Covered(l.spans, k)
    {
      var i := WindowOf(k, l.manager.compressionWindow, |l.spans|);
      SpanPositions(l, i);
      assert InSpan(l.spans[i], k);
    }
  }

  lemma SpanInPrefix(l: Ledger, i: nat, k: int)
    requires Tracks(l) && i < |l.spans| && InSpan(l.spans[i], k)
    ensures 0 <= k < CompressedCount(l.manager)
  {
    var w := l.manager.compressionWindow;
    SpanPositions(l, i);
    assert k < i * w + w == (i + 1) * w;
    MulMonotone(i + 1, |l.spans|, w);
  }

  /** The window `[i*w, i*w+w)` holding index `k` of an `n`-window prefix. */
  lemma WindowOf(k: int, w: int, n: nat) returns (i: nat)
    requires w > 0 && 0 <= k < n * w
    ensures i < n && i * w <= k < i * w + w
  {
    i := 0;
    while (i + 1) * w <= k
      invariant i * w <= k
      invariant i * w < n * w
      decreases k - i * w
    {
      i := i + 1;
    }
    if i >= n {
      MulMonotone(n, i, w);
    }
  }

  lemma MulMonotone(a: int, b: int, w: int)
    requires a <= b && w > 0
    ensures a * w <= b * w
  {
  }

  /** The operations a caller can perform on a manager. */
  datatype Op =
    | AddOp(role: Bytes, content: Bytes)
    | CompressOp(reply: Reply)
    | ResetOp

  ghost function Apply(l: Ledger, op: Op): (r: Ledger)
    requires Tracks(l)
    ensures Tracks(r)
  {
    match op
    case AddOp(role, content) => Add(l, role, content)
    case CompressOp(reply) => Compress(l, reply)
    case ResetOp => ResetLedger(l)
  }

  /** Replays operations in order. */
  ghost function Replay(l: Ledger, ops: seq<Op>): Ledger
    requires Tracks(l)
    decreases |ops|
  {
    if ops == [] then l else Replay(Apply(l, ops[0]), ops[1..])
  }

  /** Whatever the callers do and whatever the summariser answers, the summary
      ranges stay contiguous, one window each, clear of the recent window, and
      the summarised messages stay where they were. */
  lemma {:induction false} ReplayTracks(l: Ledger, ops: seq<Op>)
    requires Tracks(l)
    ensures Tracks(Replay(l, ops))
    ensures var m := Replay(l, ops).manager;
      m.compressionWindow == l.manager.compressionWindow && m.recentWindow == l.manager.recentWindow
    decreases |ops|
  {
    if ops != [] {
      ReplayTracks(Apply(l, ops[0]), ops[1..]);
    }
  }

  /** A failed compression leaves everything as it was, so the retry makes the
      identical summariser call. */
  lemma RetryIsIdentical(m: Manager, failed: Reply, retry: Reply)
    requires Inv(m)
    requires CompressIfNeeded(m, failed).status.Failed?
    ensures CompressIfNeeded(m, failed).manager == m
    ensures CompressIfNeeded(CompressIfNeeded(m, failed).manager, retry).call
         == CompressIfNeeded(m, failed).call
    ensures CompressIfNeeded(m, failed).call.value.start == CompressedCount(m)
  {
  }
}

=== FILE: text.dfy ===
/** Byte strings as Go sees them.

    A Go `string` is an immutable sequence of bytes and `len` counts bytes, so
    every string of the model is a `Bytes`. Literals written in the source (role
    names, the Cyrillic dialog texts, the summary header) are turned into bytes
    with `Utf8`, which is how the Go compiler stores them.
 */
module Text {

  newtype byte = b: int | 0 <= b < 256

  type Bytes = seq<byte>

  datatype Option<+T> = None | Some(value: T)

  /** The UTF-8 encoding of one Unicode scalar value. */
  function EncodeRune(c: char): (r: Bytes)
    ensures 1 <= |r| <= 4
    ensures (c as int < 0x80) <==> |r| == 1
    ensures |r| == 1 ==> r[0] as int == c as int
    ensures |r| > 1 ==> r[0] >= 0xC0 && forall k :: 1 <= k < |r| ==> 0x80 <= r[k] < 0xC0
  {
    var cp := c as int;
    if cp < 0x80 then
      [cp as byte]
    else if cp < 0x800 then
      [(0xC0 + cp / 64) as byte, (0x80 + cp % 64) as byte]
    else if cp < 0x1_0000 then
      [(0xE0 + cp / 4096) as byte, (0x80 + (cp / 64) % 64) as byte, (0x80 + cp % 64) as byte]
    else
      [(0xF0 + cp / 262144) as byte, (0x80 + (cp / 4096) % 64) as byte,
       (0x80 + (cp / 64) % 64) as byte, (0x80 + cp % 64) as byte]
  }

  /** The UTF-8 encoding of a string literal: the encodings of its runes, in order. */
  function Utf8(s: string): Bytes {
    Concat(seq(|s|, i requires 0 <= i < |s| => EncodeRune(s[i])))
  }

  /** `": "` and `"\n"` as bytes. */
  const Separator: Bytes := [':' as byte, ' ' as byte]
  const Newline: Bytes := ['\n' as byte]

  /** `"..."` as bytes, the ellipsis both `truncate` helpers append. */
  const Ellipsis: Bytes := ['.' as byte, '.' as byte, '.' as byte]

  ghost predicate IsAscii(s: string) {
    forall k :: 0 <= k < |s| ==> s[k] as int < 0x80
  }

  /** On ASCII text the encoding is the identity, byte for byte. */
  lemma Utf8Ascii(s: string)
    requires IsAscii(s)
    ensures |Utf8(s)| == |s|
    ensures forall k :: 0 <= k < |s| ==> Utf8(s)[k] as int == s[k] as int
  {
    ConcatSingletons(seq(|s|, i requires 0 <= i < |s| => EncodeRune(s[i])));
  }

  lemma {:induction false} ConcatSingletons(parts: seq<Bytes>)
    requires forall k :: 0 <= k < |parts| ==> |parts[k]| == 1
    ensures |Concat(parts)| == |parts|
    ensures forall k :: 0 <= k < |parts| ==> Concat(parts)[k] == parts[k][0]
  {
    if parts != [] {
      ConcatSingletons(parts[1..]);
      assert forall k :: 1 <= k < |parts| ==> Concat(parts)[k] == Concat(parts[1..])[k - 1];
    }
  }

  /** Concatenation of a list of byte strings. */
  function Concat(parts: seq<Bytes>): Bytes {
    if parts == [] then [] else parts[0] + Concat(parts[1..])
  }

  lemma {:induction false} ConcatAppend(parts: seq<Bytes>, last: Bytes)
    ensures Concat(parts + [last]) == Concat(parts) + last
  {
    if parts == [] {
      assert [last][1..] == [];
    } else {
      assert (parts + [last])[1..] == parts[1..] + [last];
      ConcatAppend(parts[1..], last);
    }
  }

  /** Go's `%d` of a non-negative integer: decimal digits without leading zeros. */
  function Decimal(n: nat): (r: Bytes)
    ensures |r| >= 1
    ensures forall k :: 0 <= k < |r| ==> '0' as byte <= r[k] <= '9' as byte
    ensures n > 0 ==> r[0] != '0' as byte
  {
    if n < 10 then [('0' as int + n) as byte] else Decimal(n / 10) + [('0' as int + n % 10) as byte]
  }

  /** Reading a string of decimal digits back as a number. */
  function DecimalValue(ds: Bytes): int {
    if ds == [] then 0 else 10 * DecimalValue(ds[..|ds| - 1]) + (ds[|ds| - 1] as int - '0' as int)
  }

  /** `Decimal` loses nothing: the digits read back as the number printed. */
  lemma {:induction false} DecimalRoundTrip(n: nat)
    ensures DecimalValue(Decimal(n)) == n
  {
    var ds := Decimal(n);
    if n < 10 {
      assert ds[..0] == [];
    } else {
      assert ds[..|ds| - 1] == Decimal(n / 10);
      DecimalRoundTrip(n / 10);
    }
  }
}

=== FILE: tokens.dfy ===
/** The integer side of the token tracker (`TokenStats`).

    Costs and prices are floating-point and not modelled. The usage percentage
    the source computes in `float64` is computed here in exact `real`
    arithmetic; the bar and the warning read it only through comparisons and
    one truncation.
 */
module TokenUsage {
  import opened Text

  datatype TokenStats = TokenStats(
    totalRequests: int,
    totalTokens: int,
    totalPromptTokens: int,
    totalCompletionTokens: int,
    currentContextTokens: int,
    maxContextTokens: int)

  /** The running total is always the sum of its two parts. */
  predicate Consistent(ts: TokenStats) {
    ts.totalTokens == ts.totalPromptTokens + ts.totalCompletionTokens
  }

  /** `NewTokenStats`: every counter at zero, the limit as given. */
  function NewTokenStats(maxContext: int): (ts: TokenStats)
    ensures ts.totalRequests == 0 && ts.totalTokens == 0
    ensures ts.totalPromptTokens == 0 && ts.totalCompletionTokens == 0
    ensures ts.currentContextTokens == 0
    ensures ts.maxContextTokens == maxContext
    ensures Consistent(ts)
  {
    TokenStats(0, 0, 0, 0, 0, maxContext)
  }

  /** `AddRequest`: one more request, its tokens added to both totals. */
  function AddRequest(ts: TokenStats, promptTokens: int, completionTokens: int): (r: TokenStats)
    ensures r.totalRequests == ts.totalRequests + 1
    ensures r.totalPromptTokens == ts.totalPromptTokens + promptTokens
    ensures r.totalCompletionTokens == ts.totalCompletionTokens + completionTokens
    ensures Consistent(r)
    ensures Consistent(ts) ==> r.totalTokens == ts.totalTokens + promptTokens + completionTokens
    ensures r.currentContextTokens == ts.currentContextTokens && r.maxContextTokens == ts.maxContextTokens
  {
    var prompt := ts.totalPromptTokens + promptTokens;
    var completion := ts.totalCompletionTokens + completionTokens;
    ts.(totalRequests := ts.totalRequests + 1,
        totalPromptTokens := prompt,
        totalCompletionTokens := completion,
        totalTokens := prompt + completion)
  }

  /** Token counts of one request: prompt and completion. */
  datatype RequestTokens = RequestTokens(prompt: int, completion: int)

  function AddRequests(ts: TokenStats, reqs: seq<RequestTokens>): TokenStats
    decreases |reqs|
  {
    if reqs == [] then ts else AddRequests(AddRequest(ts, reqs[0].prompt, reqs[0].completion), reqs[1..])
  }

  function SumPrompt(reqs: seq<RequestTokens>): int {
    if reqs == [] then 0 else reqs[0].prompt + SumPrompt(reqs[1..])
  }

  function SumCompletion(reqs: seq<RequestTokens>): int {
    if reqs == [] then 0 else reqs[0].completion + SumCompletion(reqs[1..])
  }

  /** After any run of requests the counters hold the number of requests and
      the sums of their token counts. */
  lemma {:induction false} AddRequestsTotals(ts: TokenStats, reqs: seq<RequestTokens>)
    ensures AddRequests(ts, reqs).totalRequests == ts.totalRequests + |reqs|
    ensures AddRequests(ts, reqs).totalPromptTokens == ts.totalPromptTokens + SumPrompt(reqs)
    ensures AddRequests(ts, reqs).totalCompletionTokens == ts.totalCompletionTokens + SumCompletion(reqs)
    ensures reqs != [] ==> Consistent(AddRequests(ts, reqs))
    ensures Consistent(ts) ==>
      AddRequests(ts, reqs).totalTokens == ts.totalTokens + SumPrompt(reqs) + SumCompletion(reqs)
    decreases |reqs|
  {
    if reqs != [] {
      AddRequestsTotals(AddRequest(ts, reqs[0].prompt, reqs[0].completion), reqs[1..]);
    }
  }

  /** `UpdateContextSize`: sets the current context size and nothing else. */
  function UpdateContextSize(ts: TokenStats, tokens: int): (r: TokenStats)
    ensures r.currentContextTokens == tokens
    ensures r.(currentContextTokens := ts.currentContextTokens) == ts
    ensures Consistent(ts) ==> Consistent(r)
  {
    ts.(currentContextTokens := tokens)
  }

  /** `GetContextUsagePercent` in exact arithmetic; zero for a zero limit. */
  function UsagePercent(ts: TokenStats): real {
    if ts.maxContextTokens == 0 then 0.0
    else ts.currentContextTokens as real / ts.maxContextTokens as real * 100.0
  }

  /** `IsNearLimit`: more than 80 per cent of the limit is used. */
  predicate IsNearLimit(ts: TokenStats) {
    UsagePercent(ts) > 80.0
  }

  /** `IsOverLimit`: the context is larger than the limit. */
  predicate IsOverLimit(ts: TokenStats) {
    ts.currentContextTokens > ts.maxContextTokens
  }

  /** With a positive limit, being over it means being near it as well; the
      warning therefore has to test the critical case first. */
  lemma OverLimitIsNearLimit(ts: TokenStats)
    requires ts.maxContextTokens > 0
    requires IsOverLimit(ts)
    ensures IsNearLimit(ts)
  {
    var c := ts.currentContextTokens as real;
    var m := ts.maxContextTokens as real;
    assert c / m > 1.0 by {
      assert c > m;
    }
  }

  /** `GetRemainingTokens`: what is left below the limit, never negative. */
  function GetRemainingTokens(ts: TokenStats): (r: int)
    ensures r >= 0
    ensures r > 0 <==> ts.currentContextTokens < ts.maxContextTokens
    ensures r > 0 ==> ts.currentContextTokens + r == ts.maxContextTokens
    ensures IsOverLimit(ts) ==> r == 0
  {
    var remaining := ts.maxContextTokens - ts.currentContextTokens;
    if remaining < 0 then 0 else remaining
  }

  /** Go's conversion of a float to an integer truncates toward zero. */
  function Truncate(x: real): (n: int)
    ensures x >= 0.0 ==> n as real <= x < n as real + 1.0
    ensures x < 0.0 ==> n as real - 1.0 < x <= n as real
  {
    if x >= 0.0 then x.Floor else -((-x).Floor)
  }

  /** The glyphs of the context bar: full cells coloured by the usage level,
      and free cells. */
  datatype Cell = Critical | Warning | Normal | Free

  /** The glyph of a filled cell at the given usage percentage. */
  function FilledCell(percent: real): (c: Cell)
    ensures c != Free
    ensures c == Critical <==> percent > 90.0
    ensures c == Warning <==> 80.0 < percent <= 90.0
    ensures c == Normal <==> percent <= 80.0
  {
    if percent > 90.0 then Critical else if percent > 80.0 then Warning else Normal
  }

  /** The bar width `FormatContextBar` actually uses. */
  function BarWidth(width: int): (w: nat)
    ensures w > 0
    ensures width > 0 ==> w == width
    ensures width <= 0 ==> w == 50
  {
    if width <= 0 then 50 else width
  }

  /** The number of cells `FormatContextBar` fills. */
  function FilledCount(ts: TokenStats, width: int): int {
    var w := BarWidth(width);
    var filled := Truncate(UsagePercent(ts) / 100.0 * w as real);
    if filled > w then w else filled
  }

  /** The cells of `FormatContextBar`; the surrounding brackets and the printed
      percentage are not modelled. */
  function FormatContextBar(ts: TokenStats, width: int): (cells: seq<Cell>)
    ensures |cells| == BarWidth(width)
    ensures FilledCount(ts, width) <= |cells|
    ensures forall i :: 0 <= i < |cells| ==>
      (cells[i] != Free <==> i < FilledCount(ts, width))
    ensures forall i :: 0 <= i < |cells| && cells[i] != Free ==> cells[i] == FilledCell(UsagePercent(ts))
  {
    var w := BarWidth(width);
    var filled := FilledCount(ts, width);
    var glyph := FilledCell(UsagePercent(ts));
    seq(w, i requires 0 <= i < w => if i < filled then glyph else Free)
  }

  /** An empty context shows an empty bar. */
  lemma EmptyContextEmptyBar(ts: TokenStats, width: int)
    requires ts.currentContextTokens == 0
    ensures forall i :: 0 <= i < |FormatContextBar(ts, width)| ==> FormatContextBar(ts, width)[i] == Free
  {
    assert UsagePercent(ts) == 0.0;
  }

  /** A context at or over a positive limit fills the whole bar with critical cells. */
  lemma FullContextFullBar(ts: TokenStats, width: int)
    requires 0 < ts.maxContextTokens <= ts.currentContextTokens
    ensures forall i :: 0 <= i < |FormatContextBar(ts, width)| ==> FormatContextBar(ts, width)[i] == Critical
  {
    var c := ts.currentContextTokens as real;
    var m := ts.maxContextTokens as real;
    var w := BarWidth(width);
    assert c / m >= 1.0;
    assert UsagePercent(ts) >= 100.0;
    assert UsagePercent(ts) / 100.0 * w as real >= w as real;
    assert FilledCount(ts, width) == w;
  }

  /** The kind of warning `GetWarningMessage` returns; its wording is not modelled. */
  datatype Warning =
    | LimitExceeded(current: int, max: int)
    | NearLimit(current: int, max: int)
    | NoWarning

  /** `GetWarningMessage`: the critical warning whenever over the limit, else
      the near-limit warning, else nothing. */
  function GetWarningMessage(ts: TokenStats): (w: Warning)
    ensures w.LimitExceeded? <==> IsOverLimit(ts)
    ensures w.NearLimit? <==> !IsOverLimit(ts) && IsNearLimit(ts)
    ensures w.NoWarning? <==> !IsOverLimit(ts) && !IsNearLimit(ts)
    ensures !w.NoWarning? ==> w.current == ts.currentContextTokens && w.max == ts.maxContextTokens
  {
    if IsOverLimit(ts) then LimitExceeded(ts.currentContextTokens, ts.maxContextTokens)
    else if IsNearLimit(ts) then NearLimit(ts.currentContextTokens, ts.maxContextTokens)
    else NoWarning
  }

  const Gpt4oMini: Bytes := Utf8("gpt-4o-mini")
  const Gpt4o: Bytes := Utf8("gpt-4o")
  const Gpt4TurboPreview: Bytes := Utf8("gpt-4-turbo-preview")
  const Gpt4: Bytes := Utf8("gpt-4")
  const Gpt35Turbo: Bytes := Utf8("gpt-3.5-turbo")

  /** Context limits of the known models. */
  const ModelLimits: map<Bytes, int> := map[
    Gpt4oMini := 128000,
    Gpt4o := 128000,
    Gpt4TurboPreview := 128000,
    Gpt4 := 8192,
    Gpt35Turbo := 16385]

  /** The limit assumed for a model the table does not know. */
  const DefaultModelLimit := 4096

  /** `GetModelLimit`: the table's value, or 4096 for an unknown model. */
  function GetModelLimit(model: Bytes): (limit: int)
    ensures model in ModelLimits ==> limit == ModelLimits[model]
    ensures model !in ModelLimits ==> limit == DefaultModelLimit
    ensures limit in {128000, 16385, 8192, 4096}
  {
    if model in ModelLimits then ModelLimits[model] else DefaultModelLimit
  }

  lemma ModelNameLengths()
    ensures |Gpt4oMini| == 11 && |Gpt4o| == 6 && |Gpt4TurboPreview| == 19
    ensures |Gpt4| == 5 && |Gpt35Turbo| == 13
  {
    Utf8Ascii("gpt-4o-mini");
    Utf8Ascii("gpt-4o");
    Utf8Ascii("gpt-4-turbo-preview");
    Utf8Ascii("gpt-4");
    Utf8Ascii("gpt-3.5-turbo");
  }

  /** The table holds five distinct models with these limits. */
  lemma KnownModelLimits()
    ensures |ModelLimits| == 5
    ensures GetModelLimit(Gpt4oMini) == 128000
    ensures GetModelLimit(Gpt4o) == 128000
    ensures GetModelLimit(Gpt4TurboPreview) == 128000
    ensures GetModelLimit(Gpt4) == 8192
    ensures GetModelLimit(Gpt35Turbo) == 16385
  {
    // the five names have five different lengths, so they are distinct keys
    ModelNameLengths();
    assert ModelLimits.Keys == {Gpt4oMini, Gpt4o, Gpt4TurboPreview, Gpt4, Gpt35Turbo};
  }
}
